=== FILE: README.md ===
# Remote-controlled Raspberry Pi car: a verified model of its wire logic

The system drives a small car from an operator's computer. The rover (a Raspberry Pi)
streams camera frames to the operator. In the autopilot and manual modes the operator
answers every frame with a steering and throttle pair. The pair comes from an
autopilot model in the first mode and from a PS4 game pad in the second; the
video-only mode sends nothing back. The rover turns the pair into PWM duty cycles and
direction pins for two DC motors. A second channel sends the game pad's axis and button
state, serialised, behind a 10-byte length header.

This project models the deterministic logic inside that glue:

- **JPEG scanner** (`JpegScanner`): the operator's receive loop. It appends each chunk
  to a buffer and cuts out at most one frame per chunk. The frame runs from the first
  start-of-image marker (FF D8) to the first end-of-image marker (FF D9). These are the
  SOI and EOI codes of ITU-T T.81, Table B.1. Everything up to the end marker is then
  dropped.
- **Small wire encodings** (`VideoWire`):
  - the rover's `'<L'` length prefix and its zero terminator;
  - the test client's multipart wrapper.
- **Replies** (`Reply`, built on `Decimal`): the text `"<steering>, <throttle>"` and
  the rover's split-on-comma decode. `Decimal` models `str`, `int()`, `float()`,
  `strip()` and left-justification over ASCII bytes.
- **Length-prefixed framing** (`MessageFraming`): the controller host's header
  encoder and the rover's chunk-driven receiver. The receiver appears twice in the
  repository with the same code; this one model covers both.
- **Game-pad state** (`Gamepad`, over the insertion-ordered dictionaries of `PyDict`):
  - the initial maps and the event fold;
  - the platform-dependent steering/throttle projection;
  - the `generate_event` generator and its `hadEvent` latch.
- **Controller sender** (`ControllerSender`): the send gate on the axis sum, the Linux
  in-place remap of axes 2, 3 and 4, and the framed messages sent.
- **Motors** (`Motor`): `map_range` and the decision part of the H-bridge motor's
  `run`. GPIO writes become a returned `Command` (throttle, duty, forward, backward).
- **Operator session** (`VideoServer`): the per-chunk loop of the operator's video
  thread, the reply-per-frame branches and the table of launch modes.
- **Rover control step** (`Rover`): decoding a reply and running both motors.
  `ManualControl` connects the operator's pad to the rover's motor commands end to end.

Two behaviours of the code matter for what arrives:

- The framing receiver discards any bytes beyond the announced length. A following
  message that arrived in the same chunk is swallowed into the first payload
  (`SecondMessageSwallowed`); it is not kept for later.
- The scanner drops nothing before the start marker until an end marker arrives. It
  also never loops, so a chunk with two images yields only the first
  (`TwoImagesInOneChunk`, `ChunkingMatters`).

Quirks of the code are modelled as written and stated as lemmas:

- an empty frame when the end marker comes first (`EndBeforeStart`);
- a length prefix that can forge a start marker (`LengthPrefixCanForgeStart`);
- headers of 10^10 or more read back short (`OversizeHeaderMisread`);
- the Linux remap being written back into the state, so every send rotates the axes
  again (`PressesRotateAxes`);
- the drive motor creeping forward at rest (`DriveCreepsAtRest`) and never reversing
  for small reverse commands (`DriveSmallReverseNotBackward`).

Modelling conventions:

- Bytes are `seq<byte>`, with `byte` an integer subtype 0..255.
- Axis values are stored in hundredths, as integers. `round(v, 2)` is
  round-half-to-even of `100 v`, and the gate `abs(sum) > 0.01` becomes
  `|sum of hundredths| > 1`.
- `sys.platform == 'linux'` is a boolean parameter.
- `pickle.dumps` and the autopilot's `model.run` are opaque function parameters.

## Model

| member | source | states |
|---|---|---|
| JpegScanner.Find | run_server.py:68-69 | `find` gives -1 exactly when the marker is absent, and otherwise the position of its first occurrence |
| JpegScanner.Scan | run_server.py:67-70 | when no frame is cut, the new buffer is the old buffer followed by the chunk |
| JpegScanner.ScanSpec | run_server.py:67-72 | a frame is cut exactly when the buffer plus chunk holds both markers; the new buffer is everything after the first end marker; the frame ends at that marker and starts at the first start marker, and is empty when no start marker precedes the end marker |
| JpegScanner.FrameShape | run_server.py:71 | a non-empty frame opens with a start marker, its first end marker is its last two bytes, and it is at least four bytes long |
| JpegScanner.ScanAll | run_server.py:65-72 | over a stream of chunks, at most one frame per chunk |
| JpegScanner.ScanDelimited | run_server.py:67-72 | a buffer and prefix free of 0xFF, then an image, then any tail: exactly the image is handed on and exactly the tail is kept |
| JpegScanner.TwoImagesInOneChunk | run_server.py:65-72 | with no inner loop, a chunk holding two images hands on only the first and keeps the second |
| JpegScanner.ChunkingMatters | run_server.py:65-72 | the same two images give two frames in two chunks and one frame in one chunk |
| JpegScanner.EndBeforeStart | run_server.py:68-72 | when the first end marker precedes the first start marker, the frame is empty and the buffer still moves past that end marker |
| JpegScanner.InitialSpaceNeverInFrame | run_server.py:57-72 | from a buffer that still starts with the initial space, whatever was received before, a frame is cut from the bytes after the space, and the buffer left behind is a suffix of those bytes without the space |
| JpegScanner.BufferedUntilFrame | run_server.py:66-72 | until a frame is cut, the buffer is what it started as (the initial space) followed by every byte received, in order |
| VideoWire.PackU32 | run_client.py:131 | `'<L'` packing succeeds exactly for 0 <= n < 2^32, giving four bytes that read back as n; otherwise struct.error |
| VideoWire.UnpackThenPack | run_client.py:131 | every four bytes are the packing of exactly one integer |
| VideoWire.TerminatorIsPackedZero | run_client.py:147 | the end-of-stream terminator is zero packed as `'<L'`, four zero bytes |
| VideoWire.TerminatorYieldsNoFrame | tests/run_client_test.py:70 | the terminator holds no marker, so the operator only buffers it |
| VideoWire.RoverFrameScan | run_client.py:130-134 | when the length prefix holds no 0xFF, the operator hands on exactly the image and keeps nothing |
| VideoWire.LengthPrefixCanForgeStart | run_client.py:131-134 | an image of 0xD8FF bytes is announced by FF D8 00 00, which the scanner takes for a start marker, so the frame handed on carries the prefix |
| VideoWire.PartHeader | tests/run_client_test.py:54 | the multipart part header holds no 0xFF byte |
| VideoWire.Wrap | tests/run_client_test.py:54-55 | the wrapped part is as long as header, image and trailer together, and the image bytes sit unchanged right after the header |
| VideoWire.TestClientPass | tests/run_client_test.py:56-61 | a pass puts the wrapped image followed by the stream's contents on the wire, and leaves the stream empty; from an empty stream it sends only the wrapped image |
| VideoWire.TestClientWireBytes | tests/run_client_test.py:44-61 | from an empty stream the wire carries exactly the wrapped images, since the second write of each pass is empty |
| VideoWire.WrapScan | tests/run_client_test.py:54-56 | one wrapped part in one chunk: the scanner hands on the image and keeps the trailing line break |
| VideoWire.WrappedStreamScan | tests/run_client_test.py:44-61 | a stream of wrapped images, one part per chunk, hands on every image in order |
| Reply.Split | run_client.py:141 | `split(",")` gives one more field than there are commas, no field holds a comma, and joining the fields gives the text back |
| Reply.SplitTwo | run_client.py:141 | a text with exactly one comma splits into the text before it and the text after it |
| Reply.TwoFields | run_client.py:141 | unpacking the split into two names works exactly when the text holds one comma, and then yields the text before it and the text after it |
| Reply.Parse | run_client.py:141 | every way the decode can fail (a wrong number of fields, a side `float()` rejects) is a ValueError |
| Reply.ParseDecodes | run_client.py:141 | the decode succeeds exactly when there is one comma and `float()` accepts both sides (after stripping the space and \t \n \v \f \r); the values are those of the two sides |
| Reply.SeparatorPaddingRejected | run_client.py:141 | a reply with one comma whose second field starts with the separator 0x1C (such as `1,<0x1C>2`) is a ValueError, because `float()` does not skip that byte |
| Reply.SplitFormat | run_server.py:82 | splitting a formatted reply gives the steering text and the space-prefixed throttle text |
| Reply.FormatThenParse | run_server.py:88 | a reply formatted from two comma-free numeric texts decodes to their values |
| Reply.CentiReplyRoundTrip | run_server.py:88 | a reply for two values given in hundredths decodes on the rover to exactly those values |
| Reply.OneCommaNeeded | tests/run_client_test.py:65-66 | a reply without exactly one comma is rejected |
| Decimal.ShowNat | PS4ControllerServer.py:203 | `str(n)` is digits with no leading zero, and they denote n |
| Decimal.ShowNatLength | PS4ControllerServer.py:203 | `str(n)` fits in k characters exactly when n < 10^k |
| Decimal.LeftJustify | PS4ControllerServer.py:203 | left-justifying keeps the text as a prefix, pads with spaces up to the width, and never truncates |
| Decimal.Strip | run_client.py:176 | `strip()` leaves a text no longer than its input that neither starts nor ends with whitespace |
| Decimal.StripSlice | run_client.py:176 | what `strip()` leaves is a slice of its input with only whitespace before and after it |
| Decimal.StripAround | run_client.py:176 | whitespace, then a text that neither starts nor ends with whitespace, then whitespace, strips to exactly that text |
| Decimal.ParseIntAccepts | run_client.py:176 | `int()` on bytes succeeds exactly when the text stripped of space and \t \n \v \f \r is an optional sign followed by digits |
| Decimal.ParseIntValue | run_client.py:176 | whitespace, an optional sign, digits and whitespace read as the digits' value, negated after a minus |
| Decimal.ParseIntOfDigits | run_client.py:176 | text that strips to a run of digits is read as the value of those digits |
| Decimal.ParseNumberAccepts | run_client.py:141 | `float()` on text succeeds exactly when the text stripped of the space and \t \n \v \f \r is an optional sign and digits with at most one point |
| Decimal.StrayLeadRejected | run_client.py:141 | within the decimal grammar of `Decimal.ParseNumber`, a text whose first byte is neither whitespace (space, \t \n \v \f \r) nor a sign, digit or point is rejected; so is a text starting with the separator 0x1C, as `float()` rejects it |
| Decimal.SignedText | run_client.py:141 | whitespace, an optional sign, an unsigned decimal and whitespace read as that decimal, negated after a minus |
| Decimal.UnsignedBody | run_client.py:141 | digits with an optional point read as all the digits with the point removed over 10 to the count of digits after the point |
| Decimal.ShowCentiRoundTrip | run_server.py:88 | reading back what `str` wrote for a two-decimal value gives that value |
| MessageFraming.Header | PS4ControllerServer.py:203 | the header is never shorter than 10 bytes, and exactly 10 bytes when the length is below 10^10 |
| MessageFraming.HeaderLayout | PS4ControllerServer.py:203 | a header is the digits of the length followed by the spaces that pad it to 10 bytes |
| MessageFraming.HeaderStrips | run_client.py:176 | stripping a header leaves exactly the digits of the length |
| MessageFraming.HeaderRoundTrip | run_client.py:176 | `int()` reads back the length a header was written from |
| MessageFraming.HeaderAhead | PS4ControllerServer.py:202-203 | a chunk starting with a whole message carries its length in the first 10 bytes, followed by the payload |
| MessageFraming.Receive | run_client.py:173-189 | a header chunk whose first 10 bytes are not an integer changes nothing; otherwise, with n the length read or held, a payload completes exactly when the bytes gathered exceed the header by at least n, it is every byte after the header, and the receiver then waits for a header; until then it keeps n and all bytes gathered |
| MessageFraming.ReceiveAll | run_client.py:171-189 | the loop completes at most one payload per chunk and keeps the receiver's invariant |
| MessageFraming.ReceiveAllAppend | run_client.py:171-189 | running the loop over two stretches of chunks is running it over the first, then the second |
| MessageFraming.ReceiveEncoded | run_client.py:174-189 | an encoded message split into non-empty chunks, the first holding the whole header, arrives as exactly that payload |
| MessageFraming.ReceiveStream | run_client.py:171-189 | messages whose chunks never straddle a boundary are all delivered, in order |
| MessageFraming.SecondMessageSwallowed | tests/run_client_test.py:102-109 | two messages in one chunk complete as one payload: the first payload followed by the whole second message |
| MessageFraming.JunkDropped | tests/run_client_test.py:94-100 | a chunk whose first 10 bytes are not an integer is dropped while waiting for a header |
| MessageFraming.OversizeHeaderMisread | PS4ControllerServer.py:203 | for a length of 10^10 or more, the first 10 header bytes announce a shorter length |
| MessageFraming.SplitHeaderMisread | run_client.py:173-185 | when a chunk ends after the first digit of a length of 10 or more, that digit is read as the length, and the message completes early with the payload cut to nine bytes |
| PyDict.Get | PS4ControllerServer.py:49-53 | a lookup finds nothing exactly when the key is absent |
| PyDict.SetGet | PS4ControllerServer.py:165 | after `d[k] = v`, k maps to v and every other key maps to what it did |
| PyDict.SetHasKey | PS4ControllerServer.py:165 | assignment adds k to the keys and no other key |
| PyDict.SetShape | PS4ControllerServer.py:165 | assignment keeps keys unique, and grows the dictionary only for a new key |
| PyDict.Range | PS4ControllerServer.py:31 | `{i: v for i in range(lo, hi)}` maps exactly lo..hi-1 to v, with unique keys |
| PyDict.SumSet | PS4ControllerServer.py:180 | replacing a present key's value changes the sum of values by the difference |
| Gamepad.RoundHalfEven | PS4ControllerServer.py:65 | the rounding is within one half of its argument, and ties go to the even integer |
| Gamepad.RoundHalfEvenUnique | PS4ControllerServer.py:65 | the rounding is the only integer with those two properties |
| Gamepad.RoundCentiExact | PS4ControllerServer.py:65 | a value that already has two decimals is stored unchanged |
| Gamepad.Init | PS4Controller.py:29-43 | axes 0..6 map to 0, each reported button to False, each reported hat to (0, 0), and nothing else is present |
| Gamepad.InitHasAxes | PS4ControllerServer.py:31 | the initial state has all seven axes |
| Gamepad.Apply | PS4Controller.py:62-69 | an event never removes an axis |
| Gamepad.ApplyUpdatesOneEntry | PS4ControllerServer.py:64-71 | each event assigns exactly the entry it names (rounded axis value, True, False or the hat value) and leaves every other entry alone |
| Gamepad.ApplyAllAppend | PS4ControllerServer.py:63-71 | folding two runs of events is folding the first, then the second |
| Gamepad.OnEvent | PS4ControllerServer.py:64-95 | the event is folded in; `hadEvent` is set exactly by a button press or an axis motion, or if it was already set; the pair moves only once it is set |
| Gamepad.PollRound | PS4Controller.py:61-94 | a round folds all its events, never clears the latch, and changes nothing when empty |
| Gamepad.Generate | PS4Controller.py:78-96 | one pair per round, and the final state is the fold of all events |
| Gamepad.StartTracks | PS4ControllerServer.py:33 | the initial pair (0, 0) is the projection of the initial axes |
| Gamepad.OnEventTracks | PS4ControllerServer.py:73-95 | each event keeps the pair equal to the projection of the axes |
| Gamepad.PollRoundTracks | PS4ControllerServer.py:63-95 | each round keeps the pair equal to the projection of the axes |
| Gamepad.YieldsAreProjections | PS4ControllerServer.py:56-98 | every yielded pair is the projection (axis 3 or 2, axis 1) of the axes after all events so far |
| Gamepad.LatchNeverClears | PS4Controller.py:57-76 | once set, `hadEvent` stays set for the life of the generator |
| Gamepad.QuietRoundRepeats | PS4Controller.py:59-96 | a round without events yields the previous pair again |
| ControllerSender.Remap | PS4ControllerServer.py:188-195 | axes 2, 3, 4 take the values of 4, 2, 3; other axes and the key set are unchanged |
| ControllerSender.RemapCycle | PS4ControllerServer.py:188-195 | three remaps give back the original values |
| ControllerSender.RemapKeepsSum | PS4ControllerServer.py:180-195 | the remap leaves the axis sum, and so the gate, unchanged |
| ControllerSender.SendStep | PS4ControllerServer.py:163-206 | a message goes out exactly when the gate holds after the event; the state sent is the new state, remapped on Linux and otherwise the folded one |
| ControllerSender.SendAll | PS4ControllerServer.py:160-206 | at most one message per event, and every state sent passes the gate |
| ControllerSender.GateIgnoresButtons | PS4ControllerServer.py:180-183 | button and hat events never open or close the gate |
| ControllerSender.PressesRotateAxes | PS4ControllerServer.py:183-195 | on Linux, while the gate holds, each button press rotates axes 2, 3, 4 once more; three presses bring them back |
| ControllerSender.SentStatesArrive | PS4ControllerServer.py:202-206 | whatever the chunking within each message, the rover's receiver hands on the pickle of every sent state, in order |
| Motor.MapRange | run_client.py:27-37 | `map_range` fails with ZeroDivisionError exactly when either range has zero width |
| Motor.MapRangeIsLinear | run_client.py:27-37 | otherwise its result is the floor of y_min + (x - x_min)(y_max - y_min)/(x_max - x_min) |
| Motor.MapRangeStart | run_client.py:27-37 | x_min maps to the floor of y_min |
| Motor.MapRangeMonotone | run_client.py:27-37 | for increasing ranges the map never decreases |
| Motor.Outputs | run_client.py:76-87 | duty is the absolute throttle; forward is high exactly for positive throttle and backward exactly for negative; never both |
| Motor.Run | run_client.py:62-87 | a speed outside [-1, 1] is a ValueError; any command has non-negative duty and never both pins high |
| Motor.RunErrors | run_client.py:62-72 | a motor with a non-zero max_duty fails exactly on speeds outside [-1, 1], and then only with ValueError |
| Motor.ZeroDutyFails | run_client.py:72 | a motor with max_duty 0 fails every in-range speed with ZeroDivisionError |
| Motor.RunSymmetric | run_client.py:72-87 | for a speed in range the mapped throttle is floor(speed * max_duty), bumped, then turned into outputs |
| Motor.ProductWithin | run_client.py:72 | that mapped throttle lies in [-max_duty, max_duty] |
| Motor.SteeringRange | run_client.py:117 | the steering motor always accepts an in-range speed, with throttle floor(80 * speed) in [-80, 80] |
| Motor.DriveRange | run_client.py:119 | the drive motor's throttle lies in [-50, 60], because every value below 30 is raised by 10 |
| Motor.DriveSmallReverseNotBackward | run_client.py:73-74 | a reverse speed down to -1/6 is lifted to a throttle in [0, 9] and never drives backwards |
| Motor.DriveCreepsAtRest | run_client.py:73-74 | at speed 0 the drive motor runs forward at duty 10 |
| VideoServer.ConfigOf | run_server.py:144-150 | the pilot is used exactly in autopilot mode and the pad exactly in manual mode |
| VideoServer.OnChunk | run_server.py:65-89 | without a frame the chunk is only buffered; with one the counter goes up, `q` stops before any reply, and otherwise one reply per configured source is sent |
| VideoServer.OneReplyPerFrame | run_server.py:74-89 | with one reply source, replies plus a final quit equal the frames shown |
| VideoServer.VideoOnlySilent | run_server.py:149-150 | video-only mode never replies |
| VideoServer.ManualReply | run_server.py:84-89 | in manual mode the reply carries the projection of the axes after the events queued since the last frame, and the generator keeps tracking |
| VideoServer.PadReplyParses | run_server.py:88 | a pad reply decodes on the rover to its two values divided by 100 |
| Rover.Act | run_client.py:143-144 | on success, each motor's command is what its `run` gives for its value; every failure is ValueError |
| Rover.OnReply | run_client.py:140-144 | on success, the reply decoded and the commands are those for the decoded values; every failure is ValueError |
| Rover.ActAccepts | run_client.py:143-144 | decoded values are acted on exactly when both lie in [-1, 1] |
| Rover.SteeringAppliedBeforeDriveFails | run_client.py:143-144 | with an in-range steering value and an out-of-range throttle, the steering motor accepts its command before the drive motor raises ValueError |
| Rover.OnReplyAccepts | run_client.py:140-144 | a reply is acted on exactly when it decodes and both values lie in [-1, 1] |
| Rover.PadDrives | run_client.py:141-144 | a pad reply within [-100, 100] hundredths steers at floor(80 s / 100) and drives at floor(60 t / 100), bumped |
| Rover.ManualControl | run_client.py:139-144 | end to end in manual mode: a frame draws exactly one reply, and the rover's commands follow from the pad's projection |

## Left out

- Sockets, `accept`/`connect`, `makefile`, flushes and recv sizes. Received data is an
  arbitrary sequence of chunks.
- Threads and `join`. Each component has a single owner.
- The camera, OpenCV decode and display, and Keras inference. The autopilot is an
  opaque function from a frame to its two reply texts.
- The rendering of the autopilot's floats by `str`, which is part of that opaque
  function.
- `pickle`, which is an opaque function parameter. It is a function of the state as
  modelled, in hundredths, so it cannot tell apart what `pickle.dumps` does: the initial
  int `0`, `0.0` and `-0.0` are one value here but pickle to different bytes.
- pygame polling and `pprint`. The events of a round are a parameter.
- `sys.platform`, which is a boolean parameter.
- `time.sleep` and argparse.
- GPIO effects, `shutdown` and `GPIO.cleanup`. The unimported `GPIO` name in the
  rover's `finally` block is also left out.
- `tests/test_model.py`, which is model loading, GUI keys and JSON reads.
- `PS4ClientThread` in PS4ControllerServer.py. No launch mode starts it, and its reply
  text is the one `Reply.Format` models.
- Motor.MapRange: real arithmetic stands in for IEEE doubles, so binary rounding of
  the ratio and the quotient is not modelled.
- Gamepad.RoundHalfEven: `round(v, 2)` is exact half-even rounding of `100 v` over
  reals, not Python's rounding of the binary double.
- ControllerSender.SendStep: the gate is evaluated on exact hundredths, not on a float
  sum of rounded values.
- Decimal.ParseNumberAccepts: `float()` (`Decimal.ParseNumber`) reads an exact decimal. Exponents, `inf`, `nan` and
  underscores are outside the grammar. The text is the reply decoded as UTF-8, and only
  its ASCII part is modelled: non-ASCII whitespace (U+0085, U+00A0, U+2000 and the like)
  and non-ASCII decimal digits, which `float()` accepts, are rejected here.
  The ASCII separators 0x1C..0x1F are not skipped, by `float()` or here.
- Reply.ParseDecodes: the same ASCII restriction as `Decimal.ParseNumber`. A reply that is not
  valid UTF-8 raises UnicodeDecodeError, a ValueError, and is rejected here as a
  ValueError too.
- Decimal.StrayLeadRejected: the grammar is ASCII decimals only. Python's `float()` also
  accepts texts whose first byte is none of those listed, such as `inf`, `nan`,
  `Infinity` and texts that start with U+00A0 (first byte 0xC2); they are rejected here.
- Decimal.ParseIntAccepts: `int()` (`Decimal.ParseInt`) on bytes accepts an optional sign
  and digits after stripping ASCII whitespace (space and \t \n \v \f \r). Underscores,
  which `int()` accepts between digits (`int(b"1_0")` is 10), are outside the grammar.
- Decimal.ShowCentiRoundTrip: `str` is modelled only for values with two decimals below
  10^16 in magnitude; larger values, which `str` writes in exponent notation, are not
  modelled. A pad value rounded to -0.0 is written `-0.0` by `str` and `0.0` here; both
  decode to zero. The pad's initial integer 0 renders as "0" in the source and "0.0"
  here; both decode to the same value.
- VideoServer.OnChunk: the model replies to every frame it cuts. In the source,
  `cv2.imdecode` (run_server.py:73) fails on an empty frame, and on any other frame it
  cannot decode (FF D8 FF D9, or the frame `LengthPrefixCanForgeStart` forges) it gives
  None, which makes `imshow` (run_server.py:75) raise; either ends the loop before a
  reply is sent.
- Rover.Act: a failure carries only the error. When the drive motor raises, the steering
  command already written to the pins stays applied
  (`SteeringAppliedBeforeDriveFails` states when that happens).
- MessageFraming.Receive: the payload is handed on as bytes; `pickle.loads`
  (run_client.py:185) is not modelled. A payload it rejects, such as the cut payload of
  `SplitHeaderMisread`, raises outside the `try` around `int()` and ends the receiver
  thread.
- Rover.OnReply: each `recv(64)` is taken to return exactly one reply. Replies that TCP
  merges or splits are not modelled.
- The rover's terminator write after the capture loop, which that endless loop never
  reaches. It is modelled as bytes only (`VideoWire.TerminatorIsPackedZero`).
- `self.speed`, which `run` stores but never reads.

=== FILE: bytes.dfy ===
/** Byte strings and the few Python `bytes` operations the protocol code relies on. */
module Bytes {

  type byte = b: int | 0 <= b < 256

  predicate IsAscii(s: string) {
    forall i | 0 <= i < |s| :: s[i] as int < 128
  }

  /** The ASCII encoding of a text, as `str.encode()` produces it for ASCII text. */
  function Ascii(s: string): (r: seq<byte>)
    requires IsAscii(s)
    ensures |r| == |s|
    ensures forall i | 0 <= i < |s| :: r[i] == s[i] as int
  {
    seq(|s|, i requires 0 <= i < |s| => s[i] as int as byte)
  }

  /** `b` occurs somewhere in `s`. */
  predicate Has(s: seq<byte>, b: byte) {
    exists i | 0 <= i < |s| :: s[i] == b
  }

  /** Python's `s[lo:hi]` for non-negative bounds: clamped to the end, empty when `hi <= lo`. */
  function Slice<T>(s: seq<T>, lo: nat, hi: nat): (r: seq<T>)
    ensures lo <= hi <= |s| ==> r == s[lo..hi]
    ensures lo <= |s| <= hi ==> r == s[lo..]
    ensures hi <= lo || |s| <= lo ==> r == []
  {
    if hi <= lo || |s| <= lo then []
    else if hi <= |s| then s[lo..hi]
    else s[lo..]
  }

  /**
   * The elements of a sequence of pieces, in order: the bytes of a run of chunks (what
   * the peer wrote, however `recv` split it), or the events of a run of polling rounds.
   */
  function Concat<T>(chunks: seq<seq<T>>): seq<T>
  {
    if chunks == [] then [] else chunks[0] + Concat(chunks[1..])
  }

  lemma {:induction false} ConcatAppend<T>(a: seq<seq<T>>, b: seq<seq<T>>)
    ensures Concat(a + b) == Concat(a) + Concat(b)
  {
    if a == [] {
      assert a + b == b;
    } else {
      assert (a + b)[1..] == a[1..] + b;
      ConcatAppend(a[1..], b);
    }
  }

  /** A non-empty sequence is its first element followed by the rest. */
  lemma HeadTail<T>(s: seq<T>)
    requires |s| > 0
    ensures [s[0]] + s[1..] == s
  {
  }

  lemma AppendAssoc<T>(a: seq<T>, b: seq<T>, c: seq<T>)
    ensures a + b + c == a + (b + c)
  {
  }
}

=== FILE: controller_sender.dfy ===
/**
 * The controller host's sending thread (`PS4ControllerSender.run` in
 * PS4ControllerServer.py): after every pygame event it folds the event into its
 * controller state and, whenever the axis values add up to more than 0.01 in absolute
 * value, sends the pickled axis and button dictionaries behind a 10-byte length header.
 * On Linux it first rotates axes 2, 3 and 4 in place, so the rotation is applied again
 * on every send.
 */
module ControllerSender {
  import opened Wrappers
  import opened Bytes
  import opened PyDict
  import opened Decimal
  import opened Gamepad
  import opened MessageFraming

  /** `pickle.dumps` of the event dictionary, which the model leaves opaque. */
  type Pickler = (Dict<int>, Dict<bool>) -> seq<byte>

  /** `abs(sum(values)) > 0.01` over values in hundredths. */
  predicate SendGate(c: Controller) {
    SumValues(c.axes) > 1 || SumValues(c.axes) < -1
  }

  /** The Linux remap: axis 2 takes axis 4's value, axis 3 takes axis 2's and axis 4 takes axis 3's. */
  function Remap(axes: Dict<int>): (r: Dict<int>)
    requires HasKey(axes, 2) && HasKey(axes, 3) && HasKey(axes, 4)
    ensures Get(r, 2) == Get(axes, 4) && Get(r, 3) == Get(axes, 2) && Get(r, 4) == Get(axes, 3)
    ensures forall j | j != 2 && j != 3 && j != 4 :: Get(r, j) == Get(axes, j)
    ensures forall j :: HasKey(r, j) <==> HasKey(axes, j)
  {
    var a2, a3, a4 := Get(axes, 2).value, Get(axes, 3).value, Get(axes, 4).value;
    var r1 := Set(axes, 2, a4);
    var r2 := Set(r1, 3, a2);
    var r3 := Set(r2, 4, a3);
    SetGet(axes, 2, a4);
    SetGet(r1, 3, a2);
    SetGet(r2, 4, a3);
    forall j ensures HasKey(r3, j) <==> HasKey(axes, j) {
      SetHasKey(axes, 2, a4, j);
      SetHasKey(r1, 3, a2, j);
      SetHasKey(r2, 4, a3, j);
    }
    r3
  }

  /** The remap is a 3-cycle: applied three times it gives back the same dictionary contents. */
  lemma RemapCycle(axes: Dict<int>)
    requires HasKey(axes, 2) && HasKey(axes, 3) && HasKey(axes, 4)
    ensures forall j :: Get(Remap(Remap(Remap(axes))), j) == Get(axes, j)
  {
    var r1 := Remap(axes);
    var r2 := Remap(r1);
    var r3 := Remap(r2);
    assert Get(r3, 2) == Get(axes, 2);
    assert Get(r3, 3) == Get(axes, 3);
    assert Get(r3, 4) == Get(axes, 4);
  }

  /** The remap only permutes values, so the axis sum, and with it the gate, is unchanged. */
  lemma RemapKeepsSum(axes: Dict<int>)
    requires HasKey(axes, 2) && HasKey(axes, 3) && HasKey(axes, 4)
    ensures SumValues(Remap(axes)) == SumValues(axes)
  {
    var a2, a3, a4 := Get(axes, 2).value, Get(axes, 3).value, Get(axes, 4).value;
    var r1 := Set(axes, 2, a4);
    var r2 := Set(r1, 3, a2);
    SumSet(axes, 2, a4);
    SetGet(axes, 2, a4);
    SetHasKey(axes, 2, a4, 3);
    SumSet(r1, 3, a2);
    SetGet(r1, 3, a2);
    SetHasKey(r1, 3, a2, 4);
    SumSet(r2, 4, a3);
  }

  function RemapController(c: Controller): (r: Controller)
    requires HasAxes(c)
    ensures HasAxes(r)
  {
    c.(axes := Remap(c.axes))
  }

  /** The bytes sent for a controller state: its pickle behind the length header. */
  function Message(c: Controller, pickle: Pickler): seq<byte>
  {
    Encode(pickle(c.axes, c.buttons))
  }

  /**
   * One event of the sending loop: the new state and the state that was sent, if any.
   * A message goes out exactly when the gate holds after the event; on Linux the state
   * is remapped before it is sent and keeps the remap afterwards.
   */
  function SendStep(c: Controller, e: Event, linux: bool): (r: (Controller, Option<Controller>))
    requires HasAxes(c)
    ensures HasAxes(r.0)
    ensures r.1.Some? <==> SendGate(Apply(c, e))
    ensures r.1.Some? ==> r.1.value == r.0 && SendGate(r.0)
    ensures r.1.Some? && linux ==> r.0.axes == Remap(Apply(c, e).axes)
    ensures r.1.None? || !linux ==> r.0 == Apply(c, e)
  {
    var c1 := Apply(c, e);
    if SendGate(c1) then
      RemapKeepsSum(c1.axes);
      var c2 := if linux then RemapController(c1) else c1;
      (c2, Some(c2))
    else (c1, None)
  }

  /** The sending loop over a run of events: the final state and the states sent, in order. */
  function SendAll(c: Controller, events: seq<Event>, linux: bool): (r: (Controller, seq<Controller>))
    requires HasAxes(c)
    ensures HasAxes(r.0)
    ensures |r.1| <= |events|
    ensures forall i | 0 <= i < |r.1| :: SendGate(r.1[i])
    decreases |events|
  {
    if events == [] then (c, [])
    else
      var step := SendStep(c, events[0], linux);
      var rest := SendAll(step.0, events[1..], linux);
      (rest.0, (if step.1.Some? then [step.1.value] else []) + rest.1)
  }

  /** Buttons and hats never open or close the gate: only axis motion can. */
  lemma GateIgnoresButtons(c: Controller, e: Event)
    requires !e.AxisMotion?
    ensures SendGate(Apply(c, e)) == SendGate(c)
  {
    ApplyUpdatesOneEntry(c, e);
  }

  /**
   * Because the remap is written back into the state, on Linux a button pressed while
   * the gate holds rotates the axes once more although no stick moved: three presses
   * bring them back.
   */
  lemma PressesRotateAxes(c: Controller, b: int)
    requires HasAxes(c) && SendGate(c)
    ensures var c1 := SendStep(c, ButtonDown(b), true).0;
            && Get(c1.axes, 2) == Get(c.axes, 4)
            && Get(c1.axes, 3) == Get(c.axes, 2)
            && Get(c1.axes, 4) == Get(c.axes, 3)
    ensures var c1 := SendStep(c, ButtonDown(b), true).0;
            var c2 := SendStep(c1, ButtonDown(b), true).0;
            var c3 := SendStep(c2, ButtonDown(b), true).0;
            forall j :: Get(c3.axes, j) == Get(c.axes, j)
  {
    var e := ButtonDown(b);
    GateIgnoresButtons(c, e);
    ApplyUpdatesOneEntry(c, e);
    var c1 := SendStep(c, e, true).0;
    assert c1.axes == Remap(c.axes);
    RemapKeepsSum(c.axes);
    GateIgnoresButtons(c1, e);
    ApplyUpdatesOneEntry(c1, e);
    var c2 := SendStep(c1, e, true).0;
    assert c2.axes == Remap(c1.axes);
    RemapKeepsSum(c1.axes);
    GateIgnoresButtons(c2, e);
    ApplyUpdatesOneEntry(c2, e);
    var c3 := SendStep(c2, e, true).0;
    assert c3.axes == Remap(c2.axes);
    RemapCycle(c.axes);
  }

  /**
   * Whatever the network does to the chunk boundaries inside each message, the rover's
   * receiver hands on the pickle of every state sent, in order.
   */
  lemma SentStatesArrive(c: Controller, events: seq<Event>, linux: bool, pickle: Pickler,
                         parts: seq<seq<seq<byte>>>)
    requires HasAxes(c)
    requires var sent := SendAll(c, events, linux).1;
             && |parts| == |sent|
             && forall i | 0 <= i < |sent| ::
                  |pickle(sent[i].axes, sent[i].buttons)| < Pow10(HEADER_SIZE)
                  && Chunking(parts[i], Message(sent[i], pickle))
    ensures var sent := SendAll(c, events, linux).1;
            ReceiveAll(AwaitingHeader, Concat(parts))
              == (AwaitingHeader, seq(|sent|, i requires 0 <= i < |sent| => pickle(sent[i].axes, sent[i].buttons)))
  {
    var sent := SendAll(c, events, linux).1;
    var payloads := seq(|sent|, i requires 0 <= i < |sent| => pickle(sent[i].axes, sent[i].buttons));
    forall i | 0 <= i < |payloads|
      ensures |payloads[i]| < Pow10(HEADER_SIZE) && Chunking(parts[i], Encode(payloads[i]))
    {
      assert Message(sent[i], pickle) == Encode(payloads[i]);
    }
    ReceiveStream(payloads, parts);
  }
}

=== FILE: decimal.dfy ===
/**
 * Decimal text as the protocol writes and reads it: `str(n)` and `f"{n:<10}"` for
 * non-negative integers, `str(x)` for two-decimal floats, and the parts of Python's
 * `int()` of a bytes value and `float()` of a decoded text that the receivers rely on
 * (surrounding whitespace, an optional sign, ASCII digits and, for `float()`, an optional
 * fraction).
 */
module Decimal {
  import opened Bytes
  import opened Wrappers

  const SPACE: byte := 32
  const PLUS: byte := 43
  const MINUS: byte := 45
  const DOT: byte := 46
  const ZERO: byte := 48

  predicate IsDigit(b: byte) {
    ZERO <= b <= ZERO + 9
  }

  predicate AllDigits(s: seq<byte>) {
    forall i | 0 <= i < |s| :: IsDigit(s[i])
  }

  /**
   * The whitespace Python's `int()`, `float()` and `bytes.strip()` skip around ASCII
   * text: the space and \t \n \v \f \r. The separators 0x1C..0x1F, which `str.strip()`
   * also removes, are not among them.
   */
  predicate IsSpace(b: byte) {
    b == SPACE || 9 <= b <= 13
  }

  predicate AllSpace(s: seq<byte>) {
    forall i | 0 <= i < |s| :: IsSpace(s[i])
  }

  function Pow10(k: nat): (r: nat)
    ensures r >= 1
  {
    if k == 0 then 1 else 10 * Pow10(k - 1)
  }

  /** The number a digit string denotes, most significant digit first. */
  function DigitsValue(s: seq<byte>): (r: nat)
    requires AllDigits(s)
    ensures r < Pow10(|s|)
  {
    if s == [] then 0
    else
      var v := DigitsValue(s[..|s| - 1]);
      assert v <= Pow10(|s| - 1) - 1;
      v * 10 + (s[|s| - 1] - ZERO)
  }

  /** `str(n)` for a non-negative integer: its digits, with no leading zero. */
  function ShowNat(n: nat): (r: seq<byte>)
    ensures |r| >= 1 && AllDigits(r)
    ensures r[0] != ZERO || n == 0
    ensures DigitsValue(r) == n
  {
    if n < 10 then [ZERO + n]
    else
      var r := ShowNat(n / 10) + [ZERO + n % 10];
      assert r[..|r| - 1] == ShowNat(n / 10);
      r
  }

  /** `str(n)` fits in `k` characters exactly when `n < 10^k`. */
  lemma {:induction false} ShowNatLength(n: nat, k: nat)
    requires k >= 1
    ensures |ShowNat(n)| <= k <==> n < Pow10(k)
  {
    if n >= 10 {
      if k == 1 {
        assert |ShowNat(n)| == |ShowNat(n / 10)| + 1;
      } else {
        ShowNatLength(n / 10, k - 1);
        assert n / 10 < Pow10(k - 1) <==> n < 10 * Pow10(k - 1);
      }
    } else {
      assert Pow10(k) == 10 * Pow10(k - 1);
    }
  }

  function Spaces(n: nat): (r: seq<byte>)
    ensures |r| == n
    ensures forall i | 0 <= i < n :: r[i] == SPACE
  {
    if n == 0 then [] else [SPACE] + Spaces(n - 1)
  }

  /** Python's `f"{text:<width}"`: the text, then spaces up to `width`; never truncated. */
  function LeftJustify(s: seq<byte>, width: nat): (r: seq<byte>)
    ensures |r| == if |s| < width then width else |s|
    ensures r[..|s|] == s
    ensures forall i | |s| <= i < |r| :: r[i] == SPACE
  {
    if |s| < width then s + Spaces(width - |s|) else s
  }

  function StripLeft(s: seq<byte>): (r: seq<byte>)
    ensures |r| <= |s| && r == s[|s| - |r|..]
    ensures forall i | 0 <= i < |s| - |r| :: IsSpace(s[i])
    ensures r == [] || !IsSpace(r[0])
  {
    if s != [] && IsSpace(s[0]) then StripLeft(s[1..]) else s
  }

  function StripRight(s: seq<byte>): (r: seq<byte>)
    ensures |r| <= |s| && r == s[..|r|]
    ensures forall i | |r| <= i < |s| :: IsSpace(s[i])
    ensures r == [] || !IsSpace(r[|r| - 1])
  {
    if s != [] && IsSpace(s[|s| - 1]) then StripRight(s[..|s| - 1]) else s
  }

  /** Python's `strip()`: the slice of `s` left once the whitespace on both sides is removed. */
  function Strip(s: seq<byte>): (r: seq<byte>)
    ensures |r| <= |s|
    ensures r == [] || (!IsSpace(r[0]) && !IsSpace(r[|r| - 1]))
  {
    StripRight(StripLeft(s))
  }

  /**
   * What `strip()` leaves is a slice of its input with only whitespace before and after
   * it; with `StripAround` this pins the result down.
   */
  lemma StripSlice(s: seq<byte>)
    ensures var r := Strip(s);
            exists i | 0 <= i <= |s| - |r| ::
              r == s[i..][..|r|] && AllSpace(s[..i]) && AllSpace(s[i..][|r|..])
  {
    var l := StripLeft(s);
    var r := StripRight(l);
    var i := |s| - |l|;
    assert s[i..] == l;
    assert AllSpace(s[..i]);
    assert AllSpace(l[|r|..]);
  }

  lemma StripLeftNoop(s: seq<byte>)
    requires s == [] || !IsSpace(s[0])
    ensures StripLeft(s) == s
  {
  }

  /** Text that neither starts nor ends with whitespace is left alone by `strip()`. */
  lemma StripNoop(s: seq<byte>)
    requires s == [] || (!IsSpace(s[0]) && !IsSpace(s[|s| - 1]))
    ensures Strip(s) == s
  {
    StripLeftNoop(s);
  }

  /** Whitespace in front of a text does not change what `strip()` leaves. */
  lemma StripLeadingSpace(s: seq<byte>)
    ensures Strip([SPACE] + s) == Strip(s)
  {
    assert ([SPACE] + s)[1..] == s;
  }

  /** `lstrip()` removes exactly the whitespace in front of a text that does not start with whitespace. */
  lemma {:induction false} StripLeftLead(lead: seq<byte>, t: seq<byte>)
    requires AllSpace(lead) && (t == [] || !IsSpace(t[0]))
    ensures StripLeft(lead + t) == t
    decreases |lead|
  {
    if lead == [] {
      assert lead + t == t;
    } else {
      assert (lead + t)[1..] == lead[1..] + t;
      StripLeftLead(lead[1..], t);
    }
  }

  /** `rstrip()` removes exactly the whitespace after a text that does not end with whitespace. */
  lemma {:induction false} StripRightTrail(t: seq<byte>, trail: seq<byte>)
    requires AllSpace(trail) && (t == [] || !IsSpace(t[|t| - 1]))
    ensures StripRight(t + trail) == t
    decreases |trail|
  {
    if trail == [] {
      assert t + trail == t;
    } else {
      var s := t + trail;
      assert s[..|s| - 1] == t + trail[..|trail| - 1];
      StripRightTrail(t, trail[..|trail| - 1]);
    }
  }

  /** `strip()` of whitespace, then a text that neither starts nor ends with whitespace, then whitespace, is that text. */
  lemma StripAround(lead: seq<byte>, core: seq<byte>, trail: seq<byte>)
    requires AllSpace(lead) && AllSpace(trail)
    requires core == [] || (!IsSpace(core[0]) && !IsSpace(core[|core| - 1]))
    ensures Strip(lead + core + trail) == core
  {
    if core == [] {
      assert lead + core + trail == (lead + trail) + core;
      assert AllSpace(lead + trail) by {
        forall i | 0 <= i < |lead + trail| ensures IsSpace((lead + trail)[i]) {
          if i < |lead| {
            assert (lead + trail)[i] == lead[i];
          } else {
            assert (lead + trail)[i] == trail[i - |lead|];
          }
        }
      }
      StripLeftLead(lead + trail, core);
    } else {
      assert lead + core + trail == lead + (core + trail);
      StripLeftLead(lead, core + trail);
      StripRightTrail(core, trail);
    }
  }

  /** The grammar `int()` accepts once whitespace is stripped: an optional sign, then one or more digits. */
  predicate IsIntLiteral(t: seq<byte>) {
    if |t| > 0 && (t[0] == PLUS || t[0] == MINUS) then |t| > 1 && AllDigits(t[1..])
    else |t| > 0 && AllDigits(t)
  }

  /** Python's `int()` on a byte string: `None` stands for the ValueError it raises. */
  function ParseInt(s: seq<byte>): Option<int>
  {
    ReadInt(Strip(s))
  }

  /** `int()` succeeds exactly when the stripped text is an optional sign followed by digits. */
  lemma ParseIntAccepts(s: seq<byte>)
    ensures ParseInt(s).Some? <==> IsIntLiteral(Strip(s))
  {
  }

  /** The value of an integer literal, once whitespace is stripped. */
  function ReadInt(t: seq<byte>): Option<int>
  {
    if |t| > 0 && (t[0] == PLUS || t[0] == MINUS) then
      if |t| > 1 && AllDigits(t[1..]) then
        var v: int := DigitsValue(t[1..]);
        Some(if t[0] == MINUS then -v else v)
      else None
    else if |t| > 0 && AllDigits(t) then Some(DigitsValue(t))
    else None
  }

  /** Text that strips to a run of digits is read by `int()` as the value of those digits. */
  lemma ParseIntOfDigits(s: seq<byte>, h: seq<byte>)
    requires Strip(s) == h && |h| > 0 && AllDigits(h)
    ensures ParseInt(s) == Some(DigitsValue(h))
  {
    assert IsDigit(h[0]);
    assert h[0] != PLUS && h[0] != MINUS;
  }

  /**
   * `int()` reads whitespace, an optional sign, one or more digits and whitespace as the
   * digits' value, negated after a minus; leading zeros are allowed.
   */
  lemma ParseIntValue(lead: seq<byte>, sign: seq<byte>, digits: seq<byte>, trail: seq<byte>)
    requires AllSpace(lead) && AllSpace(trail)
    requires sign == [] || sign == [PLUS] || sign == [MINUS]
    requires |digits| > 0 && AllDigits(digits)
    ensures var v: int := DigitsValue(digits);
            ParseInt(lead + sign + digits + trail) == Some(if sign == [MINUS] then -v else v)
  {
    var core := sign + digits;
    var s := lead + sign + digits + trail;
    assert s == lead + core + trail by {
      AppendAssoc(lead, sign, digits);
    }
    assert Strip(s) == core by {
      SignedEnds(sign, digits);
      StripAround(lead, core, trail);
    }
    ParseIntStripped(s, sign, digits);
  }

  /** A sign followed by digits (or points) neither starts nor ends with whitespace. */
  lemma SignedEnds(sign: seq<byte>, body: seq<byte>)
    requires sign == [] || sign == [PLUS] || sign == [MINUS]
    requires |body| > 0
    requires IsDigit(body[0]) || body[0] == DOT
    requires IsDigit(body[|body| - 1]) || body[|body| - 1] == DOT
    ensures var core := sign + body;
            !IsSpace(core[0]) && !IsSpace(core[|core| - 1])
  {
    var core := sign + body;
    assert core[|core| - 1] == body[|body| - 1];
    assert core[0] == if sign == [] then body[0] else sign[0];
  }

  /** A run of digits neither starts nor ends with whitespace. */
  lemma DigitEnds(d: seq<byte>)
    requires |d| > 0 && AllDigits(d)
    ensures !IsSpace(d[0]) && !IsSpace(d[|d| - 1])
  {
    assert IsDigit(d[0]) && IsDigit(d[|d| - 1]);
  }

  lemma ParseIntStripped(s: seq<byte>, sign: seq<byte>, digits: seq<byte>)
    requires Strip(s) == sign + digits
    requires sign == [] || sign == [PLUS] || sign == [MINUS]
    requires |digits| > 0 && AllDigits(digits)
    ensures var v: int := DigitsValue(digits);
            ParseInt(s) == Some(if sign == [MINUS] then -v else v)
  {
    ReadSigned(sign, digits);
  }

  lemma ReadSigned(sign: seq<byte>, digits: seq<byte>)
    requires sign == [] || sign == [PLUS] || sign == [MINUS]
    requires |digits| > 0 && AllDigits(digits)
    ensures var v: int := DigitsValue(digits);
            ReadInt(sign + digits) == Some(if sign == [MINUS] then -v else v)
  {
    var t := sign + digits;
    if sign != [] {
      assert t[1..] == digits;
    } else {
      assert IsDigit(t[0]);
      assert t == digits;
    }
  }

  /** The first index of byte `b` in `s`, or -1. */
  function IndexOf(s: seq<byte>, b: byte): (r: int)
    ensures -1 <= r < |s|
    ensures r == -1 <==> !Has(s, b)
    ensures r >= 0 ==> s[r] == b && !Has(s[..r], b)
  {
    if s == [] then -1
    else if s[0] == b then 0
    else
      var k := IndexOf(s[1..], b);
      if k == -1 then -1
      else
        assert s[..k + 1] == [s[0]] + s[1..][..k];
        k + 1
  }

  /**
   * An exact decimal number, `units / 10^places`: what `float()` reads from decimal
   * text, before rounding to a binary double (rounding is not part of this model).
   */
  datatype Dec = Dec(units: int, places: nat)

  function Value(d: Dec): real
  {
    d.units as real / Pow10(d.places) as real
  }

  /** The digits before and after the first point (all of it, and nothing, when there is no point). */
  function SplitPoint(body: seq<byte>): (seq<byte>, seq<byte>)
  {
    var dot := IndexOf(body, DOT);
    if dot < 0 then (body, []) else (body[..dot], body[dot + 1..])
  }

  predicate IsUnsignedLiteral(body: seq<byte>) {
    var (whole, frac) := SplitPoint(body);
    |whole| + |frac| > 0 && AllDigits(whole) && AllDigits(frac)
  }

  /** The text `float()` accepts once whitespace is stripped: an optional sign, then digits with at most one point, at least one digit in all. */
  predicate IsDecimalLiteral(t: seq<byte>) {
    if |t| > 0 && (t[0] == PLUS || t[0] == MINUS) then IsUnsignedLiteral(t[1..]) else IsUnsignedLiteral(t)
  }

  /** An unsigned decimal: its digits with the point removed, scaled by the digits after the point. */
  function ParseUnsigned(body: seq<byte>): (r: Option<Dec>)
    ensures r.Some? <==> IsUnsignedLiteral(body)
  {
    var (whole, frac) := SplitPoint(body);
    if |whole| + |frac| > 0 && AllDigits(whole) && AllDigits(frac) then
      Some(Dec(DigitsValue(whole + frac), |frac|))
    else None
  }

  /**
   * Python's `float()` on an ASCII text: `None` stands for the ValueError it raises. The
   * grammar is an optional sign and an unsigned decimal; exponents, `inf`, `nan` and
   * underscores are not part of this model.
   */
  function ParseNumber(s: seq<byte>): Option<Dec>
  {
    ParseSigned(Strip(s))
  }

  /** `float()` succeeds exactly when the stripped text is an optional sign and an unsigned decimal. */
  lemma ParseNumberAccepts(s: seq<byte>)
    ensures ParseNumber(s).Some? <==> IsDecimalLiteral(Strip(s))
  {
  }

  /**
   * `float()` skips only the whitespace of `IsSpace`, so in the decimal grammar modelled
   * here a text whose first byte is neither that whitespace nor a sign, a digit or the
   * point is rejected. The separator 0x1C, which `str.strip()` would remove, is such a
   * byte, and `float()` rejects it too.
   */
  lemma StrayLeadRejected(s: seq<byte>)
    requires |s| > 0 && !IsSpace(s[0]) && !IsDigit(s[0])
    requires s[0] != PLUS && s[0] != MINUS && s[0] != DOT
    ensures ParseNumber(s).None?
  {
    StripLeftNoop(s);
    var t := Strip(s);
    if t != [] {
      assert t[0] == s[0];
      var dot := IndexOf(t, DOT);
      assert dot != 0;
      var whole := SplitPoint(t).0;
      assert |whole| > 0 && whole[0] == s[0];
      assert !AllDigits(whole);
    }
  }

  /** An optional sign, then an unsigned decimal. */
  function ParseSigned(t: seq<byte>): Option<Dec>
  {
    if |t| > 0 && (t[0] == PLUS || t[0] == MINUS) then
      match ParseUnsigned(t[1..])
      case None => None
      case Some(d) => Some(if t[0] == MINUS then Dec(-d.units, d.places) else d)
    else ParseUnsigned(t)
  }

  /**
   * `str(x)` for a float `x` holding exactly two decimals and below 10^16 in magnitude,
   * given as its count of hundredths: a sign, the integer part, a point, and one
   * fractional digit when the second is zero, two otherwise (`0.5`, `-1.0`, `0.57`,
   * `0.05`). Zero is always written `0.0`, never `-0.0`.
   */
  function ShowCenti(c: int): seq<byte>
  {
    if c < 0 then [MINUS] + ShowUnsignedCenti(-c) else ShowUnsignedCenti(c)
  }

  function CentsDigits(cents: nat): seq<byte>
    requires cents < 100
  {
    if cents % 10 == 0 then [ZERO + cents / 10] else [ZERO + cents / 10, ZERO + cents % 10]
  }

  function ShowUnsignedCenti(a: nat): seq<byte>
  {
    ShowNat(a / 100) + [DOT] + CentsDigits(a % 100)
  }

  /** The decimal `str` writes for `c` hundredths: one place when the second decimal is zero, two otherwise. */
  function CentiDec(c: int): Dec
  {
    if c % 10 == 0 then Dec(c / 10, 1) else Dec(c, 2)
  }

  /** Appending digits shifts the value left by their count. */
  lemma {:induction false} DigitsValueAppend(x: seq<byte>, y: seq<byte>)
    requires AllDigits(x) && AllDigits(y)
    ensures AllDigits(x + y)
    ensures DigitsValue(x + y) == DigitsValue(x) * Pow10(|y|) + DigitsValue(y)
    decreases |y|
  {
    assert AllDigits(x + y) by {
      assert forall i | 0 <= i < |x + y| :: (x + y)[i] == if i < |x| then x[i] else y[i - |x|];
    }
    if y == [] {
      assert x + y == x;
    } else {
      var y' := y[..|y| - 1];
      var d := y[|y| - 1] - ZERO;
      assert (x + y)[..|x + y| - 1] == x + y';
      DigitsValueAppend(x, y');
      ShiftDigit(DigitsValue(x), Pow10(|y'|), DigitsValue(y'), d);
    }
  }

  lemma ShiftDigit(high: int, scale: int, low: int, d: int)
    ensures (high * scale + low) * 10 + d == high * (10 * scale) + (low * 10 + d)
  {
  }

  lemma CentsDigitsValue(cents: nat)
    requires cents < 100
    ensures var frac := CentsDigits(cents);
            && 0 < |frac| <= 2 && AllDigits(frac) && IsDigit(frac[|frac| - 1])
            && (cents % 10 == 0 ==> |frac| == 1 && DigitsValue(frac) == cents / 10)
            && (cents % 10 != 0 ==> |frac| == 2 && DigitsValue(frac) == cents)
  {
    var d1: byte := ZERO + cents / 10;
    assert DigitsValue([d1]) == cents / 10 by {
      assert [d1][..0] == [];
    }
    if cents % 10 != 0 {
      var d2: byte := ZERO + cents % 10;
      assert [d1, d2][..1] == [d1];
    }
  }

  /** The first point in digits-point-digits text is the one after the integer part. */
  lemma IndexOfPoint(whole: seq<byte>, frac: seq<byte>)
    requires AllDigits(whole)
    ensures IndexOf(whole + [DOT] + frac, DOT) == |whole|
  {
    var s := whole + [DOT] + frac;
    assert s[|whole|] == DOT;
    assert forall i | 0 <= i < |whole| :: s[i] == whole[i] && IsDigit(s[i]);
  }

  lemma ParseUnsignedPoint(whole: seq<byte>, frac: seq<byte>)
    requires AllDigits(whole) && AllDigits(frac) && |whole| + |frac| > 0
    ensures ParseUnsigned(whole + [DOT] + frac) == Some(Dec(DigitsValue(whole + frac), |frac|))
  {
    var body := whole + [DOT] + frac;
    var dot := IndexOf(body, DOT);
    assert dot == |whole| && body[..dot] == whole && body[dot + 1..] == frac by {
      IndexOfPoint(whole, frac);
    }
  }

  /** `float()` leaves text that is already stripped to the sign and decimal grammar. */
  lemma ParseNumberStripped(t: seq<byte>)
    requires |t| > 0 && !IsSpace(t[0]) && !IsSpace(t[|t| - 1])
    ensures ParseNumber(t) == ParseSigned(t)
  {
    StripNoop(t);
  }

  /**
   * `float()` reads whitespace, an optional sign, an unsigned decimal and whitespace as
   * that decimal, negated after a minus (`" -1.25 "` is minus what `1.25` reads as); with
   * `UnsignedBody` this gives the value of every text the grammar accepts.
   */
  lemma SignedText(lead: seq<byte>, sign: seq<byte>, body: seq<byte>, trail: seq<byte>, u: int, places: nat)
    requires AllSpace(lead) && AllSpace(trail)
    requires sign == [] || sign == [PLUS] || sign == [MINUS]
    requires |body| > 0 && (IsDigit(body[0]) || body[0] == DOT)
    requires IsDigit(body[|body| - 1]) || body[|body| - 1] == DOT
    requires ParseUnsigned(body) == Some(Dec(u, places))
    ensures ParseNumber(lead + sign + body + trail) == Some(Dec(if sign == [MINUS] then -u else u, places))
  {
    var core := sign + body;
    var s := lead + sign + body + trail;
    assert s == lead + core + trail by {
      AppendAssoc(lead, sign, body);
    }
    assert Strip(s) == core by {
      SignedEnds(sign, body);
      StripAround(lead, core, trail);
    }
    ParseNumberStrippedTo(s, sign, body, u, places);
  }

  /**
   * Digits with an optional point read as all the digits with the point removed, scaled
   * down by the count of those after the point (`1.25` is 125 / 10^2, `.5` is 5 / 10^1,
   * `7.` is 7 / 10^0); the text starts and ends with a digit or the point.
   */
  lemma UnsignedBody(whole: seq<byte>, point: bool, frac: seq<byte>, body: seq<byte>)
    requires AllDigits(whole) && AllDigits(frac) && |whole| + |frac| > 0
    requires point || frac == []
    requires body == if point then whole + [DOT] + frac else whole
    ensures AllDigits(whole + frac)
    ensures ParseUnsigned(body) == Some(Dec(DigitsValue(whole + frac), |frac|))
    ensures |body| > 0 && (IsDigit(body[0]) || body[0] == DOT)
    ensures IsDigit(body[|body| - 1]) || body[|body| - 1] == DOT
  {
    if point {
      UnsignedWithPoint(whole, frac);
    } else {
      assert whole + frac == whole;
      UnsignedNoPoint(whole);
    }
  }

  lemma UnsignedNoPoint(whole: seq<byte>)
    requires AllDigits(whole) && |whole| > 0
    ensures ParseUnsigned(whole) == Some(Dec(DigitsValue(whole), 0))
    ensures IsDigit(whole[0]) && IsDigit(whole[|whole| - 1])
  {
    assert !Has(whole, DOT) by {
      assert forall i | 0 <= i < |whole| :: IsDigit(whole[i]);
    }
    assert whole + [] == whole;
  }

  lemma UnsignedWithPoint(whole: seq<byte>, frac: seq<byte>)
    requires AllDigits(whole) && AllDigits(frac) && |whole| + |frac| > 0
    ensures AllDigits(whole + frac)
    ensures var body := whole + [DOT] + frac;
            && ParseUnsigned(body) == Some(Dec(DigitsValue(whole + frac), |frac|))
            && (IsDigit(body[0]) || body[0] == DOT)
            && (IsDigit(body[|body| - 1]) || body[|body| - 1] == DOT)
  {
    ParseUnsignedPoint(whole, frac);
    PointEnds(whole, frac);
  }

  lemma PointEnds(whole: seq<byte>, frac: seq<byte>)
    requires AllDigits(whole) && AllDigits(frac)
    ensures var body := whole + [DOT] + frac;
            && (IsDigit(body[0]) || body[0] == DOT)
            && (IsDigit(body[|body| - 1]) || body[|body| - 1] == DOT)
  {
    var body := whole + [DOT] + frac;
    assert body[0] == if whole == [] then DOT else whole[0];
    assert body[|body| - 1] == if frac == [] then DOT else frac[|frac| - 1];
  }

  lemma ParseNumberStrippedTo(s: seq<byte>, sign: seq<byte>, body: seq<byte>, u: int, places: nat)
    requires Strip(s) == sign + body
    requires sign == [] || sign == [PLUS] || sign == [MINUS]
    requires ParseUnsigned(body) == Some(Dec(u, places)) && (body[0] == DOT || IsDigit(body[0]))
    ensures ParseNumber(s) == Some(Dec(if sign == [MINUS] then -u else u, places))
  {
    SignedBody(sign, body, u, places);
  }

  lemma SignedBody(sign: seq<byte>, body: seq<byte>, u: int, places: nat)
    requires sign == [] || sign == [PLUS] || sign == [MINUS]
    requires ParseUnsigned(body) == Some(Dec(u, places)) && (body[0] == DOT || IsDigit(body[0]))
    ensures ParseSigned(sign + body) == Some(Dec(if sign == [MINUS] then -u else u, places))
  {
    var t := sign + body;
    if sign != [] {
      assert t[1..] == body;
    } else {
      assert t == body;
    }
  }

  /** The integer behind `a / 100` with one or two places, as `str` writes it. */
  lemma CentiUnits(a: nat, whole: seq<byte>, frac: seq<byte>)
    requires whole == ShowNat(a / 100) && frac == CentsDigits(a % 100)
    ensures AllDigits(whole + frac)
    ensures Dec(DigitsValue(whole + frac), |frac|) == CentiDec(a)
  {
    CentsDigitsValue(a % 100);
    DigitsValueAppend(whole, frac);
    CentsSplit(a);
  }

  lemma CentsSplit(a: nat)
    ensures (a % 100) % 10 == a % 10
    ensures a % 10 == 0 ==> (a / 100) * 10 + (a % 100) / 10 == a / 10
    ensures (a / 100) * 100 + a % 100 == a
  {
  }

  lemma ParseUnsignedCenti(a: nat)
    ensures ParseUnsigned(ShowUnsignedCenti(a)) == Some(CentiDec(a))
  {
    var whole := ShowNat(a / 100);
    var frac := CentsDigits(a % 100);
    CentsDigitsValue(a % 100);
    ParseUnsignedPoint(whole, frac);
    CentiUnits(a, whole, frac);
  }

  lemma ParseSignedNegative(u: seq<byte>, d: Dec)
    requires ParseUnsigned(u) == Some(d)
    ensures ParseSigned([MINUS] + u) == Some(Dec(-d.units, d.places))
  {
    assert ([MINUS] + u)[1..] == u;
  }

  lemma ShowUnsignedCentiEnds(a: nat)
    ensures var u := ShowUnsignedCenti(a);
            |u| > 0 && IsDigit(u[0]) && IsDigit(u[|u| - 1])
  {
    var u := ShowUnsignedCenti(a);
    var frac := CentsDigits(a % 100);
    assert u[0] == ShowNat(a / 100)[0];
    CentsDigitsValue(a % 100);
    assert u[|u| - 1] == frac[|frac| - 1];
  }

  /** Negating a count of hundredths negates the decimal `str` writes for it. */
  lemma CentiDecNegate(c: int, a: nat)
    requires c < 0 && a == -c
    ensures CentiDec(c) == Dec(-CentiDec(a).units, CentiDec(a).places)
  {
  }

  lemma NegativeText(u: seq<byte>, d: Dec, t: seq<byte>)
    requires |u| > 0 && IsDigit(u[0]) && IsDigit(u[|u| - 1])
    requires ParseUnsigned(u) == Some(d)
    requires t == [MINUS] + u
    ensures ParseNumber(t) == Some(Dec(-d.units, d.places))
  {
    ParseNumberStripped(t);
    ParseSignedNegative(u, d);
  }

  lemma UnsignedText(u: seq<byte>, d: Dec)
    requires |u| > 0 && IsDigit(u[0]) && IsDigit(u[|u| - 1])
    requires ParseUnsigned(u) == Some(d)
    ensures ParseNumber(u) == Some(d)
  {
    ParseNumberStripped(u);
  }

  lemma NegativeCentiParses(c: int, a: nat, u: seq<byte>, t: seq<byte>)
    requires c < 0 && a == -c && u == ShowUnsignedCenti(a) && t == [MINUS] + u
    ensures ParseNumber(t) == Some(CentiDec(c))
  {
    ShowUnsignedCentiEnds(a);
    ParseUnsignedCenti(a);
    NegativeText(u, CentiDec(a), t);
    CentiDecNegate(c, a);
  }

  lemma NonNegativeCentiParses(c: int, u: seq<byte>)
    requires c >= 0 && u == ShowUnsignedCenti(c)
    ensures ParseNumber(u) == Some(CentiDec(c))
  {
    ShowUnsignedCentiEnds(c);
    ParseUnsignedCenti(c);
    UnsignedText(u, CentiDec(c));
  }

  /** `float()` reads back the exact decimal that `str` wrote for a count of hundredths. */
  lemma ShowCentiParses(c: int)
    ensures ParseNumber(ShowCenti(c)) == Some(CentiDec(c))
  {
    if c < 0 {
      NegativeCentiParses(c, -c, ShowUnsignedCenti(-c), ShowCenti(c));
    } else {
      NonNegativeCentiParses(c, ShowCenti(c));
    }
  }

  /** The decimal `str` writes for `c` hundredths is worth `c / 100`. */
  lemma CentiDecValue(c: int)
    ensures Value(CentiDec(c)) == c as real / 100.0
  {
    if c % 10 == 0 {
      assert Pow10(1) == 10;
      assert c == (c / 10) * 10;
      assert (c / 10) as real / 10.0 == c as real / 100.0;
    } else {
      assert Pow10(2) == 100;
    }
  }

  /** Reading back what `str` wrote for a two-decimal value gives that value. */
  lemma ShowCentiRoundTrip(c: int)
    ensures ParseNumber(ShowCenti(c)).Some?
    ensures Value(ParseNumber(ShowCenti(c)).value) == c as real / 100.0
  {
    ShowCentiParses(c);
    CentiDecValue(c);
  }
}

=== FILE: gamepad.dfy ===
/**
 * The PS4 controller state kept on the operator's machine (class `PS4Controller`,
 * present both in PS4Controller.py and in PS4ControllerServer.py): dictionaries of axis
 * positions, button states and hat positions, updated by one pygame event at a time,
 * and the generator that yields (steering, throttle) once per polling round.
 *
 * Axis positions are stored in hundredths: the source stores `round(value, 2)`.
 */
module Gamepad {
  import opened Wrappers
  import opened Bytes
  import opened PyDict

  /** Axes 0..6 exist from the start. */
  const AXIS_COUNT: int := 7

  /** The axes the projection reads. */
  const THROTTLE_AXIS: int := 1
  const STEERING_AXIS: int := 2
  const LINUX_STEERING_AXIS: int := 3

  datatype Hat = Hat(x: int, y: int)

  /** The pygame events the fold distinguishes; any other event type is `Other`. */
  datatype Event =
    | AxisMotion(axis: int, value: real)
    | ButtonDown(button: int)
    | ButtonUp(button: int)
    | HatMotion(hat: int, position: Hat)
    | Other

  datatype Controller = Controller(axes: Dict<int>, buttons: Dict<bool>, hats: Dict<Hat>)

  /**
   * Round half to even: the integer nearest `x`, and the even one of the two when `x`
   * lies exactly between them.
   */
  function RoundHalfEven(x: real): (r: int)
    ensures x - 0.5 <= r as real <= x + 0.5
    ensures r as real - x == 0.5 || x - r as real == 0.5 ==> r % 2 == 0
  {
    var f := x.Floor;
    var d := x - f as real;
    if d < 0.5 then f
    else if d > 0.5 then f + 1
    else if f % 2 == 0 then f
    else f + 1
  }

  /** `round(v, 2)`, counted in hundredths. */
  function RoundCenti(v: real): int
  {
    RoundHalfEven(v * 100.0)
  }

  /** The rounding is the only integer with its two properties. */
  lemma RoundHalfEvenUnique(x: real, n: int)
    requires x - 0.5 <= n as real <= x + 0.5
    requires n as real - x == 0.5 || x - n as real == 0.5 ==> n % 2 == 0
    ensures RoundHalfEven(x) == n
  {
  }

  /** A value that already has two decimals is kept as it is. */
  lemma RoundCentiExact(c: int)
    ensures RoundCenti(c as real / 100.0) == c
  {
    assert c as real / 100.0 * 100.0 == c as real;
    RoundHalfEvenUnique(c as real, c);
  }

  /**
   * The state after `__init__`: axes 0..6 at 0, one released button per button the
   * joystick reports, and one centred hat per hat.
   */
  function Init(numButtons: nat, numHats: nat): (c: Controller)
    ensures forall k :: Get(c.axes, k) == (if 0 <= k < AXIS_COUNT then Some(0) else None)
    ensures forall k :: Get(c.buttons, k) == (if 0 <= k < numButtons then Some(false) else None)
    ensures forall k :: Get(c.hats, k) == (if 0 <= k < numHats then Some(Hat(0, 0)) else None)
  {
    Controller(Range(0, AXIS_COUNT, 0), Range(0, numButtons, false), Range(0, numHats, Hat(0, 0)))
  }

  /** Axes 0..6 are present, so the projection and the remap never miss a key. */
  predicate HasAxes(c: Controller) {
    forall k | 0 <= k < AXIS_COUNT :: HasKey(c.axes, k)
  }

  /** One event of the fold: at most one entry of one dictionary is assigned. */
  function Apply(c: Controller, e: Event): (r: Controller)
    ensures HasAxes(c) ==> HasAxes(r)
  {
    match e
    case AxisMotion(i, v) =>
      SetKeepsKeys(c.axes, i, RoundCenti(v));
      c.(axes := Set(c.axes, i, RoundCenti(v)))
    case ButtonDown(b) => c.(buttons := Set(c.buttons, b, true))
    case ButtonUp(b) => c.(buttons := Set(c.buttons, b, false))
    case HatMotion(h, p) => c.(hats := Set(c.hats, h, p))
    case Other => c
  }

  /** Each event changes exactly the entry it names and leaves every other entry alone. */
  lemma ApplyUpdatesOneEntry(c: Controller, e: Event)
    ensures var r := Apply(c, e);
            e.AxisMotion? ==>
              && Get(r.axes, e.axis) == Some(RoundCenti(e.value))
              && (forall j | j != e.axis :: Get(r.axes, j) == Get(c.axes, j))
              && r.buttons == c.buttons && r.hats == c.hats
    ensures var r := Apply(c, e);
            e.ButtonDown? || e.ButtonUp? ==>
              && Get(r.buttons, e.button) == Some(e.ButtonDown?)
              && (forall j | j != e.button :: Get(r.buttons, j) == Get(c.buttons, j))
              && r.axes == c.axes && r.hats == c.hats
    ensures var r := Apply(c, e);
            e.HatMotion? ==>
              && Get(r.hats, e.hat) == Some(e.position)
              && (forall j | j != e.hat :: Get(r.hats, j) == Get(c.hats, j))
              && r.axes == c.axes && r.buttons == c.buttons
    ensures e.Other? ==> Apply(c, e) == c
  {
    match e
    case AxisMotion(i, v) => SetGet(c.axes, i, RoundCenti(v));
    case ButtonDown(b) => SetGet(c.buttons, b, true);
    case ButtonUp(b) => SetGet(c.buttons, b, false);
    case HatMotion(h, p) => SetGet(c.hats, h, p);
    case Other =>
  }

  /** The fold over a run of events. */
  function ApplyAll(c: Controller, events: seq<Event>): (r: Controller)
    ensures HasAxes(c) ==> HasAxes(r)
    decreases |events|
  {
    if events == [] then c else ApplyAll(Apply(c, events[0]), events[1..])
  }

  lemma {:induction false} ApplyAllAppend(c: Controller, a: seq<Event>, b: seq<Event>)
    ensures ApplyAll(c, a + b) == ApplyAll(ApplyAll(c, a), b)
    decreases |a|
  {
    if a == [] {
      assert a + b == b;
    } else {
      assert (a + b)[0] == a[0] && (a + b)[1..] == a[1..] + b;
      ApplyAllAppend(Apply(c, a[0]), a[1..], b);
    }
  }

  lemma InitHasAxes(numButtons: nat, numHats: nat)
    ensures HasAxes(Init(numButtons, numHats))
  {
    var c := Init(numButtons, numHats);
    forall k | 0 <= k < AXIS_COUNT ensures HasKey(c.axes, k) {
      assert Get(c.axes, k).Some?;
    }
  }

  /**
   * `convert_dict_into_steer_throttle`: (axis 3, axis 1) on Linux, (axis 2, axis 1)
   * elsewhere.
   */
  function SteerThrottle(c: Controller, linux: bool): (r: (int, int))
    requires HasAxes(c)
  {
    (Get(c.axes, if linux then LINUX_STEERING_AXIS else STEERING_AXIS).value, Get(c.axes, THROTTLE_AXIS).value)
  }

  /** The events that latch `hadEvent`: a button pressed or an axis moved. */
  predicate IsTrigger(e: Event) {
    e.ButtonDown? || e.AxisMotion?
  }

  /** The generator's local state: the controller, the `hadEvent` latch and the last pair. */
  datatype Generator = Generator(pad: Controller, hadEvent: bool, pair: (int, int))

  function StartGenerator(numButtons: nat, numHats: nat): Generator
  {
    Generator(Init(numButtons, numHats), false, (0, 0))
  }

  /**
   * One event inside `generate_event`: fold it in, latch `hadEvent`, and once the latch
   * is set recompute the pair from the axes.
   */
  function OnEvent(g: Generator, e: Event, linux: bool): (r: Generator)
    requires HasAxes(g.pad)
    ensures HasAxes(r.pad) && r.pad == Apply(g.pad, e)
    ensures r.hadEvent <==> g.hadEvent || IsTrigger(e)
    ensures !r.hadEvent ==> r.pair == g.pair
  {
    var pad := Apply(g.pad, e);
    var had := g.hadEvent || IsTrigger(e);
    Generator(pad, had, if had then SteerThrottle(pad, linux) else g.pair)
  }

  /** One polling round: every event `pygame.event.get()` returned, in order. */
  function PollRound(g: Generator, events: seq<Event>, linux: bool): (r: Generator)
    requires HasAxes(g.pad)
    ensures HasAxes(r.pad) && r.pad == ApplyAll(g.pad, events)
    ensures g.hadEvent ==> r.hadEvent
    ensures events == [] ==> r == g
    decreases |events|
  {
    if events == [] then g else PollRound(OnEvent(g, events[0], linux), events[1..], linux)
  }

  /** The pairs `generate_event` yields, one per polling round, and the state it ends in. */
  function Generate(g: Generator, rounds: seq<seq<Event>>, linux: bool): (r: (Generator, seq<(int, int)>))
    requires HasAxes(g.pad)
    ensures HasAxes(r.0.pad) && r.0.pad == ApplyAll(g.pad, Concat(rounds))
    ensures |r.1| == |rounds|
    decreases |rounds|
  {
    if rounds == [] then (g, [])
    else
      var next := PollRound(g, rounds[0], linux);
      var rest := Generate(next, rounds[1..], linux);
      ApplyAllAppend(g.pad, rounds[0], Concat(rounds[1..]));
      (rest.0, [next.pair] + rest.1)
  }

  /** The generator's pair is the projection of its controller's axes. */
  predicate Tracks(g: Generator, linux: bool) {
    HasAxes(g.pad) && g.pair == SteerThrottle(g.pad, linux)
  }

  lemma StartTracks(numButtons: nat, numHats: nat, linux: bool)
    ensures Tracks(StartGenerator(numButtons, numHats), linux)
  {
    InitHasAxes(numButtons, numHats);
    var c := Init(numButtons, numHats);
    assert Get(c.axes, THROTTLE_AXIS) == Some(0);
    assert Get(c.axes, if linux then LINUX_STEERING_AXIS else STEERING_AXIS) == Some(0);
  }

  /**
   * Before the latch is set only button releases, hat motion and other events arrive,
   * and none of them moves an axis; after it is set the pair is recomputed on every
   * event. Either way the pair keeps tracking the axes.
   */
  lemma OnEventTracks(g: Generator, e: Event, linux: bool)
    requires Tracks(g, linux)
    ensures Tracks(OnEvent(g, e, linux), linux)
  {
    ApplyUpdatesOneEntry(g.pad, e);
  }

  lemma {:induction false} PollRoundTracks(g: Generator, events: seq<Event>, linux: bool)
    requires Tracks(g, linux)
    ensures Tracks(PollRound(g, events, linux), linux)
    decreases |events|
  {
    if events != [] {
      OnEventTracks(g, events[0], linux);
      PollRoundTracks(OnEvent(g, events[0], linux), events[1..], linux);
    }
  }

  /**
   * Every pair the generator yields is the projection of the controller reached by
   * folding in every event of every round so far, starting from the generator's state.
   */
  lemma {:induction false} YieldsAreProjections(g: Generator, rounds: seq<seq<Event>>, linux: bool, i: int)
    requires Tracks(g, linux) && 0 <= i < |rounds|
    ensures HasAxes(ApplyAll(g.pad, Concat(rounds[..i + 1])))
    ensures Generate(g, rounds, linux).1[i] == SteerThrottle(ApplyAll(g.pad, Concat(rounds[..i + 1])), linux)
    decreases i
  {
    var next := PollRound(g, rounds[0], linux);
    PollRoundTracks(g, rounds[0], linux);
    if i == 0 {
      assert rounds[..1] == [rounds[0]];
      assert Concat([rounds[0]]) == rounds[0] + Concat([rounds[0]][1..]);
      assert rounds[0] + [] == rounds[0];
    } else {
      YieldsAreProjections(next, rounds[1..], linux, i - 1);
      assert rounds[..i + 1] == [rounds[0]] + rounds[1..][..i];
      assert Concat(rounds[..i + 1]) == rounds[0] + Concat(rounds[1..][..i]);
      ApplyAllAppend(g.pad, rounds[0], Concat(rounds[1..][..i]));
    }
  }

  /** `hadEvent` is never cleared: once set, it stays set through every later round. */
  lemma {:induction false} LatchNeverClears(g: Generator, rounds: seq<seq<Event>>, linux: bool)
    requires HasAxes(g.pad) && g.hadEvent
    ensures Generate(g, rounds, linux).0.hadEvent
    decreases |rounds|
  {
    if rounds != [] {
      LatchNeverClears(PollRound(g, rounds[0], linux), rounds[1..], linux);
    }
  }

  /** A round without events yields the previous pair again. */
  lemma QuietRoundRepeats(g: Generator, rounds: seq<seq<Event>>, linux: bool)
    requires HasAxes(g.pad) && |rounds| > 0 && rounds[0] == []
    ensures Generate(g, rounds, linux).1[0] == g.pair
  {
  }
}

=== FILE: jpeg_scanner.dfy ===
/**
 * The operator's video receiver: after every `recv`, the received bytes are appended
 * to a buffer, the buffer is searched for the first start-of-image marker (FF D8) and
 * the first end-of-image marker (FF D9) (the SOI and EOI codes of ITU-T T.81, Table
 * B.1), and when both are present the bytes from the first to just past the second
 * are handed on as one frame and the buffer keeps only what follows that end marker.
 * There is no inner loop: one `recv` yields at most one frame.
 */
module JpegScanner {
  import opened Bytes
  import opened Wrappers

  /** A two-byte JPEG marker: the 0xFF lead byte and the marker code. */
  datatype Marker = Marker(lead: byte, code: byte)

  const SOI := Marker(0xFF, 0xD8)
  const EOI := Marker(0xFF, 0xD9)

  /** The buffer before the first `recv`: a single space byte. */
  const InitialBuffer: seq<byte> := [0x20]

  predicate MarkerAt(s: seq<byte>, i: int, m: Marker) {
    0 <= i && i + 1 < |s| && s[i] == m.lead && s[i + 1] == m.code
  }

  predicate Contains(s: seq<byte>, m: Marker) {
    exists i | 0 <= i < |s| :: MarkerAt(s, i, m)
  }

  /** `i` is the first position of `m` in `s`. */
  predicate FirstAt(s: seq<byte>, i: int, m: Marker) {
    MarkerAt(s, i, m) && forall j | 0 <= j < i :: !MarkerAt(s, j, m)
  }

  lemma FirstAtUnique(s: seq<byte>, i: int, k: int, m: Marker)
    requires FirstAt(s, i, m) && FirstAt(s, k, m)
    ensures i == k
  {
  }

  /** Python's `bytes.find` for a marker: its first position, or -1 when it is absent. */
  function Find(s: seq<byte>, m: Marker): (r: int)
    ensures r == -1 <==> !Contains(s, m)
    ensures r != -1 ==> FirstAt(s, r, m)
  {
    FindFrom(s, m, 0)
  }

  function FindFrom(s: seq<byte>, m: Marker, from: nat): (r: int)
    requires from <= |s|
    requires forall j | 0 <= j < from :: !MarkerAt(s, j, m)
    ensures r == -1 <==> !Contains(s, m)
    ensures r != -1 ==> FirstAt(s, r, m)
    decreases |s| - from
  {
    if from + 1 >= |s| then -1
    else if s[from] == m.lead && s[from + 1] == m.code then
      assert MarkerAt(s, from, m);
      from
    else FindFrom(s, m, from + 1)
  }

  /** What one scan step hands on (at most one frame) and the buffer it leaves. */
  datatype Step = Step(frame: Option<seq<byte>>, buffer: seq<byte>)

  /** One pass of the receive loop: append the chunk, then cut out at most one frame. */
  function Scan(buffer: seq<byte>, chunk: seq<byte>): (r: Step)
    ensures r.frame.None? ==> r.buffer == buffer + chunk
  {
    var s := buffer + chunk;
    var first := Find(s, SOI);
    var last := Find(s, EOI);
    if first != -1 && last != -1 then
      Step(Some(Slice(s, first, last + 2)), s[last + 2..])
    else
      Step(None, s)
  }

  /**
   * A frame is emitted exactly when both markers are present. The new buffer is then
   * whatever follows the first end marker; the frame ends at that marker and begins
   * at the first start marker, and is empty when the end marker comes first.
   */
  lemma ScanSpec(buffer: seq<byte>, chunk: seq<byte>)
    ensures var r := Scan(buffer, chunk);
            var s := buffer + chunk;
            r.frame.Some? <==> Contains(s, SOI) && Contains(s, EOI)
    ensures var r := Scan(buffer, chunk);
            var s := buffer + chunk;
            var cut := |s| - |r.buffer|;
            r.frame.Some? ==>
              && 2 <= cut
              && FirstAt(s, cut - 2, EOI)
              && r.buffer == s[cut..]
              && (r.frame.value == [] <==> !Contains(s[..cut], SOI))
              && (r.frame.value != [] ==>
                    var f := r.frame.value;
                    |f| <= cut && FirstAt(s, cut - |f|, SOI) && f == s[cut - |f|..cut])
  {
    var s := buffer + chunk;
    var first := Find(s, SOI);
    var last := Find(s, EOI);
    if first != -1 && last != -1 {
      assert first != last && first != last + 1;
      assert first < last + 2 ==> first < last;
      var upto := s[..last + 2];
      assert Contains(upto, SOI) <==> first < last by {
        if first < last {
          assert MarkerAt(upto, first, SOI);
        }
        forall j | 0 <= j < |upto| && MarkerAt(upto, j, SOI)
          ensures first <= j
        {
          assert MarkerAt(s, j, SOI);
        }
      }
    }
  }

  /** A non-empty frame runs from a start marker to an end marker and holds no earlier end marker. */
  lemma FrameShape(buffer: seq<byte>, chunk: seq<byte>)
    requires Scan(buffer, chunk).frame.Some? && Scan(buffer, chunk).frame.value != []
    ensures var f := Scan(buffer, chunk).frame.value;
            |f| >= 4 && MarkerAt(f, 0, SOI) && FirstAt(f, |f| - 2, EOI)
  {
    ScanSpec(buffer, chunk);
    var r := Scan(buffer, chunk);
    var s := buffer + chunk;
    CutShape(s, |s| - |r.buffer|, r.frame.value);
  }

  lemma CutShape(s: seq<byte>, cut: int, f: seq<byte>)
    requires 2 <= cut <= |s| && FirstAt(s, cut - 2, EOI)
    requires f != [] && |f| <= cut && FirstAt(s, cut - |f|, SOI) && f == s[cut - |f|..cut]
    ensures |f| >= 4 && MarkerAt(f, 0, SOI) && FirstAt(f, |f| - 2, EOI)
  {
    var start := cut - |f|;
    assert start != cut - 2 && start != cut - 1 && start != cut - 3;
    assert MarkerAt(f, 0, SOI);
    assert MarkerAt(f, |f| - 2, EOI);
    forall j | 0 <= j < |f| - 2
      ensures !MarkerAt(f, j, EOI)
    {
      if MarkerAt(f, j, EOI) {
        assert MarkerAt(s, start + j, EOI);
      }
    }
  }

  /** Every `recv` of a chunk stream, in order: the frames handed on and the final buffer. */
  function ScanAll(buffer: seq<byte>, chunks: seq<seq<byte>>): (r: (seq<seq<byte>>, seq<byte>))
    ensures |r.0| <= |chunks|
    decreases |chunks|
  {
    if chunks == [] then ([], buffer)
    else
      var step := Scan(buffer, chunks[0]);
      var rest := ScanAll(step.buffer, chunks[1..]);
      (if step.frame.Some? then [step.frame.value] + rest.0 else rest.0, rest.1)
  }

  /** Bytes that can neither begin nor end a marker. */
  predicate NoLead(s: seq<byte>) {
    forall i | 0 <= i < |s| :: s[i] != 0xFF
  }

  /** A single JPEG image: it opens with SOI and its first EOI is its last two bytes. */
  predicate IsJpeg(j: seq<byte>) {
    MarkerAt(j, 0, SOI) && FirstAt(j, |j| - 2, EOI)
  }

  lemma FirstAtShift(pre: seq<byte>, j: seq<byte>, post: seq<byte>, i: int, m: Marker)
    requires m.lead == 0xFF && NoLead(pre) && FirstAt(j, i, m) && i + 2 <= |j|
    ensures FirstAt(pre + j + post, |pre| + i, m)
  {
    var s := pre + j + post;
    assert MarkerAt(s, |pre| + i, m);
    forall k | 0 <= k < |pre| + i
      ensures !MarkerAt(s, k, m)
    {
      if k < |pre| {
        assert s[k] == pre[k];
      } else {
        assert s[k] == j[k - |pre|] && s[k + 1] == j[k - |pre| + 1];
        assert !MarkerAt(j, k - |pre|, m);
      }
    }
  }

  lemma FindIs(s: seq<byte>, i: int, m: Marker)
    requires FirstAt(s, i, m)
    ensures Find(s, m) == i
  {
    assert Contains(s, m);
    FirstAtUnique(s, Find(s, m), i, m);
  }

  /**
   * A buffer and a chunk prefix free of 0xFF bytes, then one JPEG image, then any
   * tail: the step hands on exactly the image and keeps exactly the tail.
   */
  lemma ScanDelimited(buffer: seq<byte>, pre: seq<byte>, j: seq<byte>, post: seq<byte>)
    requires NoLead(buffer) && NoLead(pre) && IsJpeg(j)
    ensures Scan(buffer, pre + j + post) == Step(Some(j), post)
  {
    var lead := buffer + pre;
    var s := buffer + (pre + j + post);
    assert s == lead + j + post;
    FirstAtShift(lead, j, post, 0, SOI);
    FindIs(s, |lead|, SOI);
    FirstAtShift(lead, j, post, |j| - 2, EOI);
    FindIs(s, |lead| + |j| - 2, EOI);
    assert s[|lead|..|lead| + |j|] == j;
    assert s[|lead| + |j|..] == post;
  }

  /**
   * Without an inner loop a chunk holding two images yields only the first; the
   * second stays buffered until the next `recv`.
   */
  lemma TwoImagesInOneChunk(buffer: seq<byte>, j1: seq<byte>, j2: seq<byte>)
    requires NoLead(buffer) && IsJpeg(j1)
    ensures Scan(buffer, j1 + j2) == Step(Some(j1), j2)
  {
    assert [] + j1 + j2 == j1 + j2;
    ScanDelimited(buffer, [], j1, j2);
  }

  lemma ImageAlone(buffer: seq<byte>, j: seq<byte>)
    requires NoLead(buffer) && IsJpeg(j)
    ensures Scan(buffer, j) == Step(Some(j), [])
  {
    TwoImagesInOneChunk(buffer, j, []);
    assert j + [] == j;
  }

  /** Unfolds one `recv` of a chunk stream that hands on a frame. */
  lemma ScanAllFrame(buffer: seq<byte>, cs: seq<seq<byte>>, f: seq<byte>, b: seq<byte>)
    requires |cs| > 0 && Scan(buffer, cs[0]) == Step(Some(f), b)
    ensures ScanAll(buffer, cs) == ([f] + ScanAll(b, cs[1..]).0, ScanAll(b, cs[1..]).1)
  {
  }

  lemma TwoImagesTwoChunks(j1: seq<byte>, j2: seq<byte>)
    requires IsJpeg(j1) && IsJpeg(j2)
    ensures ScanAll(InitialBuffer, [j1, j2]).0 == [j1, j2]
  {
    assert NoLead(InitialBuffer);
    ImageAlone(InitialBuffer, j1);
    ImageAlone([], j2);
    var cs := [j1, j2];
    ScanAllFrame(InitialBuffer, cs, j1, []);
    assert cs[1..] == [j2];
    ScanAllFrame([], [j2], j2, []);
    assert [j2][1..] == [];
  }

  lemma TwoImagesOneChunk(j1: seq<byte>, j2: seq<byte>)
    requires IsJpeg(j1)
    ensures ScanAll(InitialBuffer, [j1 + j2]).0 == [j1]
  {
    assert NoLead(InitialBuffer);
    TwoImagesInOneChunk(InitialBuffer, j1, j2);
    ScanAllFrame(InitialBuffer, [j1 + j2], j1, j2);
    assert [j1 + j2][1..] == [];
  }

  /**
   * How the stream is cut into chunks changes what is handed on: the same two images
   * give two frames when they arrive in two chunks and one frame when they arrive
   * together.
   */
  lemma ChunkingMatters(j1: seq<byte>, j2: seq<byte>)
    requires IsJpeg(j1) && IsJpeg(j2)
    ensures ScanAll(InitialBuffer, [j1, j2]).0 == [j1, j2]
    ensures ScanAll(InitialBuffer, [j1 + j2]).0 == [j1]
  {
    TwoImagesTwoChunks(j1, j2);
    TwoImagesOneChunk(j1, j2);
  }

  /**
   * When the first end marker precedes the first start marker, the frame handed on is
   * empty and the buffer still moves past that end marker.
   */
  lemma EndBeforeStart(buffer: seq<byte>, chunk: seq<byte>, k: int)
    requires FirstAt(buffer + chunk, k, EOI)
    requires Contains(buffer + chunk, SOI)
    requires forall j | 0 <= j <= k :: !MarkerAt(buffer + chunk, j, SOI)
    ensures Scan(buffer, chunk) == Step(Some([]), (buffer + chunk)[k + 2..])
  {
    ScanSpec(buffer, chunk);
    var s := buffer + chunk;
    var r := Scan(buffer, chunk);
    var cut := |s| - |r.buffer|;
    FirstAtUnique(s, cut - 2, k, EOI);
    NoStartBefore(s, k);
  }

  lemma NoStartBefore(s: seq<byte>, k: int)
    requires 0 <= k && k + 2 <= |s|
    requires forall j | 0 <= j <= k :: !MarkerAt(s, j, SOI)
    ensures !Contains(s[..k + 2], SOI)
  {
    var upto := s[..k + 2];
    forall j | 0 <= j < k + 2
      ensures !MarkerAt(upto, j, SOI)
    {
      if MarkerAt(upto, j, SOI) {
        assert MarkerAt(s, j, SOI);
      }
    }
  }

  /**
   * The space the buffer starts with is never part of a frame. While no frame is cut it
   * stays at the head of the buffer, ahead of everything received (`BufferedUntilFrame`);
   * the step that cuts the first frame takes it from the bytes after the space, and the
   * buffer it leaves no longer holds the space.
   */
  lemma InitialSpaceNeverInFrame(rest: seq<byte>, chunk: seq<byte>)
    requires Scan(InitialBuffer + rest, chunk).frame.Some?
    ensures var r := Scan(InitialBuffer + rest, chunk);
            var t := rest + chunk;
            var f := r.frame.value;
            var cut := |t| - |r.buffer|;
            && 1 <= cut
            && r.buffer == t[cut..]
            && (f == [] || (|f| <= cut && f == t[cut - |f|..cut]))
  {
    var t := rest + chunk;
    var s := (InitialBuffer + rest) + chunk;
    assert s == InitialBuffer + t;
    var first := Find(s, SOI);
    var last := Find(s, EOI);
    assert MarkerAt(s, first, SOI) && MarkerAt(s, last, EOI);
    SpaceCut(t, s, first, last);
  }

  /** Markers found after the leading space cut the same bytes out of what follows it. */
  lemma SpaceCut(t: seq<byte>, s: seq<byte>, first: int, last: int)
    requires s == InitialBuffer + t
    requires MarkerAt(s, first, SOI) && MarkerAt(s, last, EOI)
    ensures var f := Slice(s, first, last + 2);
            var cut := |t| - |s[last + 2..]|;
            && cut == last + 1
            && s[last + 2..] == t[cut..]
            && (f == [] || (|f| <= cut && f == t[cut - |f|..cut]))
  {
    assert s[0] == 0x20;
    assert 1 <= first && 1 <= last;
    assert s[last + 2..] == t[last + 1..];
    if first < last + 2 {
      assert s[first..last + 2] == t[first - 1..last + 1];
    }
  }

  /** Until a frame is cut, the buffer is what it started as followed by every byte received. */
  lemma {:induction false} BufferedUntilFrame(buffer: seq<byte>, chunks: seq<seq<byte>>)
    requires ScanAll(buffer, chunks).0 == []
    ensures ScanAll(buffer, chunks).1 == buffer + Concat(chunks)
    decreases |chunks|
  {
    if chunks != [] {
      var step := Scan(buffer, chunks[0]);
      assert step.frame.None?;
      assert step.buffer == buffer + chunks[0];
      BufferedUntilFrame(buffer + chunks[0], chunks[1..]);
      assert Concat(chunks) == chunks[0] + Concat(chunks[1..]);
      AppendAssoc(buffer, chunks[0], Concat(chunks[1..]));
    }
  }
}

=== FILE: message_framing.dfy ===
/**
 * The length-prefixed framing of the controller channel: each message is preceded by a
 * 10-byte header holding its length as left-justified decimal text
 * (PS4ControllerServer.py), and the rover's receiver reads the header from the first 10
 * bytes of a chunk, then gathers chunks until the payload is complete (run_client.py).
 *
 * The receiver works per `recv` chunk, not on the byte stream: the header is read from
 * the first 10 bytes of the chunk that starts a message, a chunk whose header does not
 * parse is dropped whole, at most one message is completed per chunk, and bytes received
 * beyond a completed message stay inside its payload rather than starting the next one.
 */
module MessageFraming {
  import opened Bytes
  import opened Wrappers
  import opened Decimal

  const HEADER_SIZE: nat := 10

  /** `f"{len(message):<10}"`: the length in decimal, padded with spaces to 10 bytes (never cut). */
  function Header(n: nat): (r: seq<byte>)
    ensures |r| >= HEADER_SIZE
    ensures |r| == HEADER_SIZE <==> n < Pow10(HEADER_SIZE)
  {
    ShowNatLength(n, HEADER_SIZE);
    LeftJustify(ShowNat(n), HEADER_SIZE)
  }

  /** `int()` reads back the length a header was written from. */
  lemma HeaderRoundTrip(n: nat)
    ensures ParseInt(Header(n)) == Some(n)
  {
    HeaderStrips(n);
    ParseIntOfDigits(Header(n), ShowNat(n));
  }

  /** The padding `bytes.strip()` removes from a header is exactly the spaces after the digits. */
  lemma HeaderStrips(n: nat)
    ensures Strip(Header(n)) == ShowNat(n)
  {
    var digits := ShowNat(n);
    HeaderLayout(n);
    DigitEnds(digits);
    StripAround([], digits, Spaces(PadWidth(|digits|)));
  }

  /** How many spaces pad `k` characters of text to a header. */
  function PadWidth(k: nat): nat
  {
    if k < HEADER_SIZE then HEADER_SIZE - k else 0
  }

  /** A header is the digits of the length, then the spaces that pad it to ten bytes. */
  lemma HeaderLayout(n: nat)
    ensures Header(n) == [] + ShowNat(n) + Spaces(PadWidth(|ShowNat(n)|))
  {
    var digits := ShowNat(n);
    assert [] + digits == digits;
    if |digits| >= HEADER_SIZE {
      assert digits + Spaces(0) == digits;
    }
  }

  /** What the controller host sends for one serialised event. */
  function Encode(payload: seq<byte>): seq<byte>
  {
    Header(|payload|) + payload
  }

  /**
   * The receiver's state between chunks: waiting for a chunk that starts a message, or
   * holding the announced length and every byte gathered so far (header included).
   */
  datatype Receiver = AwaitingHeader | Collecting(msgLen: int, full: seq<byte>)

  /** A receiver that is collecting has not yet gathered its whole message. */
  predicate Valid(r: Receiver) {
    r.Collecting? ==> |r.full| - HEADER_SIZE < r.msgLen
  }

  /** The completion test after a chunk has been added. */
  function Complete(msgLen: int, full: seq<byte>): (Receiver, Option<seq<byte>>)
  {
    if |full| - HEADER_SIZE >= msgLen then (AwaitingHeader, Some(Slice(full, HEADER_SIZE, |full|)))
    else (Collecting(msgLen, full), None)
  }

  /**
   * One `recv` chunk through the receiver loop: the new state and the payload completed
   * by this chunk, if any.
   */
  function Receive(r: Receiver, data: seq<byte>): (out: (Receiver, Option<seq<byte>>))
    ensures Valid(out.0)
    ensures out.1.Some? ==> out.0 == AwaitingHeader
    ensures r.AwaitingHeader? && ParseInt(Slice(data, 0, HEADER_SIZE)).None? ==> out == (AwaitingHeader, None)
    ensures r.AwaitingHeader? && ParseInt(Slice(data, 0, HEADER_SIZE)).Some? ==>
              var n := ParseInt(Slice(data, 0, HEADER_SIZE)).value;
              && (out.1.Some? <==> |data| - HEADER_SIZE >= n)
              && (out.1.Some? ==> out.1.value == Slice(data, HEADER_SIZE, |data|))
              && (out.1.None? ==> out.0 == Collecting(n, data))
    ensures r.Collecting? ==>
              var full := r.full + data;
              && (out.1.Some? <==> |full| - HEADER_SIZE >= r.msgLen)
              && (out.1.Some? ==> out.1.value == Slice(full, HEADER_SIZE, |full|))
              && (out.1.None? ==> out.0 == Collecting(r.msgLen, full))
  {
    match r
    case AwaitingHeader =>
      (match ParseInt(Slice(data, 0, HEADER_SIZE))
       case None => (AwaitingHeader, None)
       case Some(n) => Complete(n, data))
    case Collecting(n, full) => Complete(n, full + data)
  }

  /** The receiver loop over a sequence of chunks: the final state and the payloads completed, in order. */
  function ReceiveAll(r: Receiver, chunks: seq<seq<byte>>): (out: (Receiver, seq<seq<byte>>))
    ensures |out.1| <= |chunks|
    ensures Valid(r) ==> Valid(out.0)
    decreases |chunks|
  {
    if chunks == [] then (r, [])
    else
      var step := Receive(r, chunks[0]);
      var later := ReceiveAll(step.0, chunks[1..]);
      (later.0, Emitted(step.1) + later.1)
  }

  /** The payload a single chunk completed, as a list of zero or one payloads. */
  function Emitted(m: Option<seq<byte>>): (r: seq<seq<byte>>)
    ensures |r| <= 1
  {
    if m.Some? then [m.value] else []
  }

  /** Running the loop over two stretches of chunks is running it over the first, then the second. */
  lemma {:induction false} ReceiveAllAppend(r: Receiver, a: seq<seq<byte>>, b: seq<seq<byte>>)
    ensures ReceiveAll(r, a + b)
         == var (r1, ms1) := ReceiveAll(r, a);
            var (r2, ms2) := ReceiveAll(r1, b);
            (r2, ms1 + ms2)
    decreases |a|
  {
    if a == [] {
      assert a + b == b;
      var (r2, ms2) := ReceiveAll(r, b);
      assert [] + ms2 == ms2;
    } else {
      assert (a + b)[0] == a[0];
      assert (a + b)[1..] == a[1..] + b;
      var step := Receive(r, a[0]);
      ReceiveAllAppend(step.0, a[1..], b);
      var (r2, ms1) := ReceiveAll(step.0, a[1..]);
      var (r3, ms2) := ReceiveAll(r2, b);
      assert Emitted(step.1) + ms1 + ms2 == Emitted(step.1) + (ms1 + ms2);
    }
  }

  /** The chunks a message may be split into by the network: non-empty, the first holding the whole header. */
  predicate Chunking(chunks: seq<seq<byte>>, message: seq<byte>) {
    && Concat(chunks) == message
    && |chunks| > 0
    && |chunks[0]| >= HEADER_SIZE
    && forall i | 0 <= i < |chunks| :: |chunks[i]| > 0
  }

  /** While collecting, the remaining chunks of a message complete it with the last one, and not before. */
  lemma {:induction false} CollectRest(n: nat, full: seq<byte>, rest: seq<seq<byte>>)
    requires |full| - HEADER_SIZE < n
    requires |full| + |Concat(rest)| - HEADER_SIZE == n
    requires forall i | 0 <= i < |rest| :: |rest[i]| > 0
    ensures ReceiveAll(Collecting(n, full), rest)
         == (AwaitingHeader, [(full + Concat(rest))[HEADER_SIZE..]])
    decreases |rest|
  {
    assert rest != [];
    var full' := full + rest[0];
    assert Concat(rest) == rest[0] + Concat(rest[1..]);
    assert full + Concat(rest) == full' + Concat(rest[1..]);
    if rest[1..] == [] {
      assert Concat(rest[1..]) == [];
      assert Receive(Collecting(n, full), rest[0]) == (AwaitingHeader, Some(full'[HEADER_SIZE..]));
      assert ReceiveAll(AwaitingHeader, rest[1..]) == (AwaitingHeader, []);
      assert (full + Concat(rest))[HEADER_SIZE..] == full'[HEADER_SIZE..];
      assert [full'[HEADER_SIZE..]] + [] == [full'[HEADER_SIZE..]];
    } else {
      assert |Concat(rest[1..])| > 0 by {
        assert Concat(rest[1..]) == rest[1..][0] + Concat(rest[1..][1..]);
      }
      assert Receive(Collecting(n, full), rest[0]) == (Collecting(n, full'), None);
      CollectRest(n, full', rest[1..]);
      var ms := ReceiveAll(Collecting(n, full'), rest[1..]).1;
      assert [] + ms == ms;
    }
  }

  /**
   * A message split into chunks whose first one carries the whole header arrives intact
   * (the partner of `Encode`): exactly one payload is completed, it is the one sent, and
   * the receiver is ready for the next message.
   */
  lemma ReceiveEncoded(payload: seq<byte>, chunks: seq<seq<byte>>)
    requires |payload| < Pow10(HEADER_SIZE)
    requires Chunking(chunks, Encode(payload))
    ensures ReceiveAll(AwaitingHeader, chunks) == (AwaitingHeader, [payload])
  {
    var first := chunks[0];
    var rest := chunks[1..];
    assert Concat(chunks) == first + Concat(rest);
    FirstChunk(payload, first, Concat(rest));
    ReceiveStarts(first, |payload|);
    assert forall i | 0 <= i < |rest| :: |rest[i]| > 0 by {
      forall i | 0 <= i < |rest| ensures |rest[i]| > 0 {
        assert rest[i] == chunks[i + 1];
      }
    }
    CompleteThenRest(|payload|, first, rest, payload);
  }

  /** After the chunk that starts a message, the remaining chunks finish it exactly. */
  lemma CompleteThenRest(n: nat, first: seq<byte>, rest: seq<seq<byte>>, payload: seq<byte>)
    requires |first| >= HEADER_SIZE && |first| + |Concat(rest)| - HEADER_SIZE == n
    requires forall i | 0 <= i < |rest| :: |rest[i]| > 0
    requires (first + Concat(rest))[HEADER_SIZE..] == payload
    ensures var step := Complete(n, first);
            var later := ReceiveAll(step.0, rest);
            later.0 == AwaitingHeader && Emitted(step.1) + later.1 == [payload]
  {
    var tail := Concat(rest);
    if |first| - HEADER_SIZE >= n {
      CompleteNow(n, first, rest, payload);
    } else {
      assert Complete(n, first) == (Collecting(n, first), None);
      CollectRest(n, first, rest);
      var ms := ReceiveAll(Collecting(n, first), rest).1;
      assert ms == [(first + tail)[HEADER_SIZE..]];
      assert Emitted(None) + ms == ms;
    }
  }

  /** The chunk that starts a message already holds all of it, so no chunks follow. */
  lemma CompleteNow(n: nat, first: seq<byte>, rest: seq<seq<byte>>, payload: seq<byte>)
    requires |first| - HEADER_SIZE >= n
    requires |first| >= HEADER_SIZE && |first| + |Concat(rest)| - HEADER_SIZE == n
    requires forall i | 0 <= i < |rest| :: |rest[i]| > 0
    requires (first + Concat(rest))[HEADER_SIZE..] == payload
    ensures Complete(n, first) == (AwaitingHeader, Some(payload))
    ensures rest == [] && ReceiveAll(AwaitingHeader, rest) == (AwaitingHeader, [])
  {
    var tail := Concat(rest);
    assert |tail| == 0;
    NothingLeft(rest);
    assert first + tail == first;
    assert Slice(first, HEADER_SIZE, |first|) == first[HEADER_SIZE..];
  }

  /** Chunks that are all non-empty and carry no bytes in total are no chunks at all. */
  lemma NothingLeft(rest: seq<seq<byte>>)
    requires |Concat(rest)| == 0
    requires forall i | 0 <= i < |rest| :: |rest[i]| > 0
    ensures rest == []
  {
  }

  /**
   * Messages whose chunks never straddle a message boundary are all delivered, in the
   * order sent.
   */
  lemma ReceiveStream(payloads: seq<seq<byte>>, parts: seq<seq<seq<byte>>>)
    requires |parts| == |payloads|
    requires forall i | 0 <= i < |payloads| :: |payloads[i]| < Pow10(HEADER_SIZE)
    requires forall i | 0 <= i < |payloads| :: Chunking(parts[i], Encode(payloads[i]))
    ensures ReceiveAll(AwaitingHeader, Concat(parts)) == (AwaitingHeader, payloads)
  {
    forall i | 0 <= i < |parts|
      ensures ReceiveAll(AwaitingHeader, parts[i]) == (AwaitingHeader, [payloads[i]])
    {
      ReceiveEncoded(payloads[i], parts[i]);
    }
    DeliverEach(payloads, parts);
  }

  /** Stretches of chunks that each deliver one payload deliver them all when run back to back. */
  lemma {:induction false} DeliverEach(payloads: seq<seq<byte>>, parts: seq<seq<seq<byte>>>)
    requires |parts| == |payloads|
    requires forall i | 0 <= i < |parts| :: ReceiveAll(AwaitingHeader, parts[i]) == (AwaitingHeader, [payloads[i]])
    ensures ReceiveAll(AwaitingHeader, Concat(parts)) == (AwaitingHeader, payloads)
    decreases |parts|
  {
    if parts == [] {
      assert Concat(parts) == [];
    } else {
      assert ReceiveAll(AwaitingHeader, parts[0]) == (AwaitingHeader, [payloads[0]]);
      assert ReceiveAll(AwaitingHeader, Concat(parts[1..])) == (AwaitingHeader, payloads[1..]) by {
        forall i | 0 <= i < |parts[1..]|
          ensures ReceiveAll(AwaitingHeader, parts[1..][i]) == (AwaitingHeader, [payloads[1..][i]])
        {
          assert parts[1..][i] == parts[i + 1];
        }
        DeliverEach(payloads[1..], parts[1..]);
      }
      assert Concat(parts) == parts[0] + Concat(parts[1..]);
      HeadTail(payloads);
      ReceiveAllAppend(AwaitingHeader, parts[0], Concat(parts[1..]));
    }
  }

  /**
   * Two messages that arrive in one chunk are completed as one payload: the first
   * message's bytes followed by the second message, header and all, so the second is
   * never delivered on its own.
   */
  lemma SecondMessageSwallowed(p1: seq<byte>, p2: seq<byte>)
    requires |p1| < Pow10(HEADER_SIZE)
    ensures Receive(AwaitingHeader, Encode(p1) + Encode(p2)) == (AwaitingHeader, Some(p1 + Encode(p2)))
  {
    var data := Encode(p1) + Encode(p2);
    HeaderAhead(p1, Encode(p2), data);
    ReceiveStarts(data, |p1|);
  }

  lemma ReceiveStarts(data: seq<byte>, n: int)
    requires ParseInt(Slice(data, 0, HEADER_SIZE)) == Some(n)
    ensures Receive(AwaitingHeader, data) == Complete(n, data)
  {
  }

  /** A chunk that starts with a whole message carries that message's length in its first 10 bytes. */
  lemma HeaderAhead(payload: seq<byte>, rest: seq<byte>, data: seq<byte>)
    requires |payload| < Pow10(HEADER_SIZE)
    requires data == Encode(payload) + rest
    ensures |data| >= HEADER_SIZE + |payload|
    ensures ParseInt(Slice(data, 0, HEADER_SIZE)) == Some(|payload|)
    ensures Slice(data, HEADER_SIZE, |data|) == payload + rest
  {
    var h := Header(|payload|);
    HeaderRoundTrip(|payload|);
    AppendAssoc(h, payload, rest);
    HeaderSlices(h, payload + rest, data);
  }

  lemma HeaderSlices(h: seq<byte>, body: seq<byte>, data: seq<byte>)
    requires |h| == HEADER_SIZE && data == h + body
    ensures Slice(data, 0, HEADER_SIZE) == h
    ensures Slice(data, HEADER_SIZE, |data|) == body
  {
    assert data[..HEADER_SIZE] == h;
    assert data[HEADER_SIZE..] == body;
  }

  /** The first chunk of a message, when it holds the whole header, announces the payload's length. */
  lemma FirstChunk(payload: seq<byte>, first: seq<byte>, tail: seq<byte>)
    requires |payload| < Pow10(HEADER_SIZE)
    requires first + tail == Encode(payload)
    requires |first| >= HEADER_SIZE
    ensures ParseInt(Slice(first, 0, HEADER_SIZE)) == Some(|payload|)
    ensures (first + tail)[HEADER_SIZE..] == payload
  {
    var h := Header(|payload|);
    HeaderRoundTrip(|payload|);
    assert |h| == HEADER_SIZE;
    assert first[..HEADER_SIZE] == (first + tail)[..HEADER_SIZE] == h;
  }

  /**
   * A chunk that arrives mid-message while the receiver waits for a header, and whose
   * first 10 bytes are not an integer, is dropped and leaves the receiver waiting.
   */
  lemma JunkDropped(data: seq<byte>)
    requires !IsIntLiteral(Strip(Slice(data, 0, HEADER_SIZE)))
    ensures ReceiveAll(AwaitingHeader, [data]) == (AwaitingHeader, [])
  {
    ParseIntAccepts(Slice(data, 0, HEADER_SIZE));
  }

  /**
   * A length of 10^10 or more no longer fits the header, and the first 10 bytes then
   * announce a shorter length than the payload's.
   */
  lemma OversizeHeaderMisread(n: nat)
    requires n >= Pow10(HEADER_SIZE)
    ensures ParseInt(Header(n)[..HEADER_SIZE]).Some?
    ensures ParseInt(Header(n)[..HEADER_SIZE]).value < n
  {
    var digits := ShowNat(n);
    assert Header(n) == digits && |digits| > HEADER_SIZE by {
      ShowNatLength(n, HEADER_SIZE);
    }
    DigitsParse(digits[..HEADER_SIZE]);
  }

  /**
   * A header split by the network is misread: when the first chunk holds only the first
   * digit of a two-digit or longer length, that digit is taken as the whole length, and
   * a second chunk carrying the rest of the header and nine payload bytes completes the
   * message with the payload cut to those nine bytes.
   */
  lemma SplitHeaderMisread(p: seq<byte>)
    requires 10 <= |p| < Pow10(HEADER_SIZE)
    ensures var m := Encode(p);
            ReceiveAll(AwaitingHeader, [m[..1], m[1..HEADER_SIZE + 9]]) == (AwaitingHeader, [p[..9]])
  {
    var m := Encode(p);
    var first: seq<byte>, second: seq<byte> := m[..1], m[1..HEADER_SIZE + 9];
    var d := FirstDigitAlone(p);
    var r1 := Receive(AwaitingHeader, first);
    assert r1 == (Collecting(d, first), None);
    assert first + second == m[..HEADER_SIZE + 9];
    assert m[HEADER_SIZE..HEADER_SIZE + 9] == p[..9] by {
      HeaderSlices(Header(|p|), p, m);
      assert m[HEADER_SIZE..] == p;
    }
    var r2 := Receive(r1.0, second);
    assert r2 == (AwaitingHeader, Some(p[..9]));
    var chunks: seq<seq<byte>> := [first, second];
    assert chunks[1..] == [second] && |chunks[1..][1..]| == 0;
    assert ReceiveAll(AwaitingHeader, chunks[1..][1..]) == (AwaitingHeader, []);
    assert ReceiveAll(r1.0, chunks[1..]) == (AwaitingHeader, [p[..9]] + []);
    assert ReceiveAll(AwaitingHeader, chunks) == (AwaitingHeader, [] + ([p[..9]] + []));
    assert [] + ([p[..9]] + []) == [p[..9]];
  }

  /** The first byte of a message with a payload of 10 bytes or more reads alone as a length from 1 to 9. */
  lemma FirstDigitAlone(p: seq<byte>) returns (d: int)
    requires 10 <= |p| < Pow10(HEADER_SIZE)
    ensures 1 <= d <= 9
    ensures ParseInt(Slice(Encode(p)[..1], 0, HEADER_SIZE)) == Some(d)
  {
    var digits := ShowNat(|p|);
    ShowNatLength(|p|, 1);
    assert Encode(p)[..1] == digits[..1];
    assert Slice(digits[..1], 0, HEADER_SIZE) == digits[..1];
    DigitsParse(digits[..1]);
    d := DigitsValue(digits[..1]);
    assert d == digits[0] - ZERO by {
      assert digits[..1][..0] == [];
    }
  }

  /** A run of decimal digits is read by `int()` as its value. */
  lemma DigitsParse(h: seq<byte>)
    requires |h| > 0 && AllDigits(h)
    ensures ParseInt(h) == Some(DigitsValue(h))
  {
    assert !IsSpace(h[0]) && !IsSpace(h[|h| - 1]) by {
      assert IsDigit(h[0]) && IsDigit(h[|h| - 1]);
    }
    StripNoop(h);
    ParseIntOfDigits(h, h);
  }
}

=== FILE: motor.dfy ===
/**
 * The rover's motor command decision (`map_range` and `L298N_HBridge_DC_Motor.run` in
 * run_client.py): a speed in [-1, 1] is mapped linearly onto [-max_duty, max_duty] and
 * floored, nudged up by 10 when it falls below the motor's minimum, and turned into a
 * PWM duty cycle and the levels of the forward and backward pins.
 */
module Motor {
  import opened Wrappers

  /**
   * `map_range`: the ratio of the two range widths is taken first, so a zero-width
   * output range fails on the first division and a zero-width input range on the
   * second. Otherwise the result is the floor of the linear image of `x`.
   */
  function MapRange(x: real, xMin: real, xMax: real, yMin: real, yMax: real): (r: Result<int>)
    ensures r.Err? <==> xMax == xMin || yMax == yMin
    ensures r.Err? ==> r.error == ZeroDivisionError
  {
    var xRange := xMax - xMin;
    var yRange := yMax - yMin;
    if yRange == 0.0 then Err(ZeroDivisionError)
    else
      var ratio := xRange / yRange;
      if ratio == 0.0 then Err(ZeroDivisionError)
      else Ok(((x - xMin) / ratio + yMin).Floor)
  }

  /** Dividing by a ratio is multiplying by its inverse, and a ratio of non-zeros is non-zero. */
  lemma DivideByRatio(p: real, a: real, b: real)
    requires a != 0.0 && b != 0.0
    ensures a / b != 0.0
    ensures p / (a / b) == p * b / a
  {
    assert (a / b) * b == a;
  }

  /**
   * The linear map in its usual form: the result is the integer part of
   * `y_min + (x - x_min) * (y_max - y_min) / (x_max - x_min)`.
   */
  lemma MapRangeIsLinear(x: real, xMin: real, xMax: real, yMin: real, yMax: real)
    requires xMax != xMin && yMax != yMin
    ensures MapRange(x, xMin, xMax, yMin, yMax)
         == Ok((yMin + (x - xMin) * (yMax - yMin) / (xMax - xMin)).Floor)
  {
    var p, a, b := x - xMin, xMax - xMin, yMax - yMin;
    DivideByRatio(p, a, b);
    assert MapRange(x, xMin, xMax, yMin, yMax) == Ok((p / (a / b) + yMin).Floor);
    var y := yMin + (x - xMin) * (yMax - yMin) / (xMax - xMin);
    assert p / (a / b) + yMin == y;
  }

  /** The low end of the input range lands on the (floored) low end of the output range. */
  lemma MapRangeStart(xMin: real, xMax: real, yMin: real, yMax: real)
    requires xMax != xMin && yMax != yMin
    ensures MapRange(xMin, xMin, xMax, yMin, yMax) == Ok(yMin.Floor)
  {
    MapRangeIsLinear(xMin, xMin, xMax, yMin, yMax);
    assert (xMin - xMin) * (yMax - yMin) == 0.0;
  }

  /** For increasing ranges the map never decreases. */
  lemma MapRangeMonotone(x1: real, x2: real, xMin: real, xMax: real, yMin: real, yMax: real)
    requires xMax > xMin && yMax > yMin && x1 <= x2
    ensures MapRange(x1, xMin, xMax, yMin, yMax).Ok? && MapRange(x2, xMin, xMax, yMin, yMax).Ok?
    ensures MapRange(x1, xMin, xMax, yMin, yMax).value <= MapRange(x2, xMin, xMax, yMin, yMax).value
  {
    MapRangeIsLinear(x1, xMin, xMax, yMin, yMax);
    MapRangeIsLinear(x2, xMin, xMax, yMin, yMax);
    LinearMonotone(x1, x2, xMin, xMax, yMin, yMax);
  }

  lemma LinearMonotone(x1: real, x2: real, xMin: real, xMax: real, yMin: real, yMax: real)
    requires xMax > xMin && yMax > yMin && x1 <= x2
    ensures (yMin + (x1 - xMin) * (yMax - yMin) / (xMax - xMin)).Floor
         <= (yMin + (x2 - xMin) * (yMax - yMin) / (xMax - xMin)).Floor
  {
    ScaleMonotone(x1 - xMin, x2 - xMin, yMax - yMin, xMax - xMin);
    FloorMonotone(yMin + (x1 - xMin) * (yMax - yMin) / (xMax - xMin),
                  yMin + (x2 - xMin) * (yMax - yMin) / (xMax - xMin));
  }

  lemma ScaleMonotone(p1: real, p2: real, s: real, d: real)
    requires p1 <= p2 && s > 0.0 && d > 0.0
    ensures p1 * s / d <= p2 * s / d
  {
    assert p1 * s <= p2 * s;
  }

  lemma MulNonNegative(a: real, b: real)
    requires a >= 0.0 && b >= 0.0
    ensures a * b >= 0.0
  {
  }

  lemma FloorMonotone(a: real, b: real)
    requires a <= b
    ensures a.Floor <= b.Floor
  {
  }

  /** A motor: its maximum duty cycle and its minimum value (0 when it has none). */
  datatype Motor = Motor(maxDuty: int, minValue: int)

  /** The steering motor (max_duty 80) and the drive motor (max_duty 60, min_value 30). */
  const Steering := Motor(80, 0)
  const Drive := Motor(60, 30)

  /** What `run` leaves behind: the stored throttle, the duty cycle and the two pin levels. */
  datatype Command = Command(throttle: int, duty: int, forward: bool, backward: bool)

  /** Below a positive minimum the throttle is raised by 10, whatever its sign. */
  function Bump(m: Motor, t: int): int
  {
    if t < m.minValue && m.minValue > 0 then t + 10 else t
  }

  /** The pin and duty choice for a throttle. */
  function Outputs(t: int): (r: Command)
    ensures r.throttle == t
    ensures r.duty >= 0 && !(r.forward && r.backward)
    ensures r.duty == if t < 0 then -t else t
    ensures r.forward <==> t > 0
    ensures r.backward <==> t < 0
  {
    if t > 0 then Command(t, t, true, false)
    else if t < 0 then Command(t, -t, false, true)
    else Command(t, t, false, false)
  }

  /**
   * `run(speed)`: a speed outside [-1, 1] raises ValueError before anything changes;
   * otherwise the mapped throttle, bumped, decides the outputs.
   */
  function Run(m: Motor, speed: real): (r: Result<Command>)
    ensures speed > 1.0 || speed < -1.0 ==> r == Err(ValueError)
    ensures r.Ok? ==> r.value.duty >= 0 && !(r.value.forward && r.value.backward)
  {
    if speed > 1.0 || speed < -1.0 then Err(ValueError)
    else
      match MapRange(speed, -1.0, 1.0, -(m.maxDuty as real), m.maxDuty as real)
      case Err(e) => Err(e)
      case Ok(t) => Ok(Outputs(Bump(m, t)))
  }

  /** A motor whose max_duty is 0 fails every in-range speed with ZeroDivisionError. */
  lemma ZeroDutyFails(m: Motor, speed: real)
    requires -1.0 <= speed <= 1.0 && m.maxDuty == 0
    ensures Run(m, speed) == Err(ZeroDivisionError)
  {
    assert MapRange(speed, -1.0, 1.0, -(m.maxDuty as real), m.maxDuty as real).Err?;
  }

  /**
   * A motor with a non-zero max_duty fails exactly on the speeds outside [-1, 1], and
   * then with ValueError: the zero-width ranges of `map_range` cannot arise.
   */
  lemma RunErrors(m: Motor, speed: real)
    requires m.maxDuty != 0
    ensures Run(m, speed).Err? <==> speed > 1.0 || speed < -1.0
    ensures Run(m, speed).Err? ==> Run(m, speed).error == ValueError
  {
    if -1.0 <= speed <= 1.0 {
      RunSymmetric(m, speed);
    }
  }

  /** For a speed in range the mapped throttle is the floor of `speed * max_duty`. */
  lemma RunSymmetric(m: Motor, speed: real)
    requires -1.0 <= speed <= 1.0 && m.maxDuty != 0
    ensures Run(m, speed) == Ok(Outputs(Bump(m, (speed * m.maxDuty as real).Floor)))
  {
    MapSymmetric(speed, m.maxDuty);
    RunOfMapped(m, speed, (speed * m.maxDuty as real).Floor);
  }

  lemma RunOfMapped(m: Motor, speed: real, t: int)
    requires -1.0 <= speed <= 1.0
    requires MapRange(speed, -1.0, 1.0, -(m.maxDuty as real), m.maxDuty as real) == Ok(t)
    ensures Run(m, speed) == Ok(Outputs(Bump(m, t)))
  {
  }

  /** Mapping [-1, 1] onto [-n, n] is multiplication by `n`, floored. */
  lemma MapSymmetric(speed: real, n: int)
    requires n != 0
    ensures MapRange(speed, -1.0, 1.0, -(n as real), n as real) == Ok((speed * n as real).Floor)
  {
    SymmetricStep(speed, n as real);
  }

  /** The ratio is `1 / d`, so dividing by it and shifting by `-d` gives `s * d`. */
  lemma SymmetricStep(s: real, d: real)
    requires d != 0.0
    ensures (1.0 - -1.0) / (d - -d) != 0.0
    ensures (s - -1.0) / ((1.0 - -1.0) / (d - -d)) + -d == s * d
  {
    assert (1.0 - -1.0) / (d - -d) == 1.0 / d;
    assert (s - -1.0) / (1.0 / d) == (s + 1.0) * d;
    assert (s + 1.0) * d == s * d + d;
  }

  /** The floor of `s * n` for `s` in [-1, 1] lies in [-n, n]. */
  lemma ProductWithin(s: real, n: int)
    requires -1.0 <= s <= 1.0 && n > 0
    ensures -n <= (s * n as real).Floor <= n
  {
    var d := n as real;
    MulNonNegative(1.0 - s, d);
    MulNonNegative(1.0 + s, d);
    assert (1.0 - s) * d == d - s * d;
    assert (1.0 + s) * d == d + s * d;
    FloorMonotone(-d, s * d);
    FloorMonotone(s * d, d);
  }

  /**
   * Because of the bump, a small reverse command on the drive motor (down to -1/6) never
   * drives it backwards: its mapped value in [-10, -1] is lifted to [0, 9].
   */
  lemma DriveSmallReverseNotBackward(speed: real)
    requires -1.0 / 6.0 <= speed < 0.0
    ensures Run(Drive, speed).Ok? && !Run(Drive, speed).value.backward
    ensures 0 <= Run(Drive, speed).value.throttle <= 9
  {
    RunSymmetric(Drive, speed);
    FloorMonotone(-10.0, speed * 60.0);
  }

  /** The steering motor follows the stick: throttle `floor(80 * speed)` in [-80, 80]. */
  lemma SteeringRange(speed: real)
    requires -1.0 <= speed <= 1.0
    ensures Run(Steering, speed).Ok?
    ensures Run(Steering, speed).value.throttle == (speed * 80.0).Floor
    ensures -80 <= Run(Steering, speed).value.throttle <= 80
  {
    RunSymmetric(Steering, speed);
    ProductWithin(speed, 80);
  }

  /**
   * The drive motor never reaches full reverse: every mapped value below 30 is raised by
   * 10, so its throttle lies in [-50, 60].
   */
  lemma DriveRange(speed: real)
    requires -1.0 <= speed <= 1.0
    ensures Run(Drive, speed).Ok?
    ensures -50 <= Run(Drive, speed).value.throttle <= 60
  {
    RunSymmetric(Drive, speed);
    ProductWithin(speed, 60);
  }

  /** At rest the drive motor still turns forward, at duty 10. */
  lemma DriveCreepsAtRest()
    ensures Run(Drive, 0.0) == Ok(Command(10, 10, true, false))
  {
    RunSymmetric(Drive, 0.0);
  }
}

=== FILE: py_dict.dfy ===
/**
 * Python dictionaries with integer keys, as the controller code uses them: an
 * association list in insertion order. Assigning to a present key replaces its value
 * where it stands; assigning to a new key appends it.
 */
module PyDict {
  import opened Wrappers

  type Dict<V> = seq<(int, V)>

  /** `k in d`. */
  predicate HasKey<V>(d: Dict<V>, k: int) {
    d != [] && (d[0].0 == k || HasKey(d[1..], k))
  }

  /** No key occurs twice. */
  predicate UniqueKeys<V>(d: Dict<V>) {
    d == [] || (!HasKey(d[1..], d[0].0) && UniqueKeys(d[1..]))
  }

  /** `d.get(k)`: the value stored under `k`, or `None` when `k` is absent. */
  function Get<V>(d: Dict<V>, k: int): (r: Option<V>)
    ensures r.None? <==> !HasKey(d, k)
  {
    if d == [] then None
    else if d[0].0 == k then Some(d[0].1)
    else Get(d[1..], k)
  }

  /** `d[k] = v`. */
  function Set<V>(d: Dict<V>, k: int, v: V): (r: Dict<V>)
  {
    if d == [] then [(k, v)]
    else if d[0].0 == k then [(k, v)] + d[1..]
    else [d[0]] + Set(d[1..], k, v)
  }

  /** After `d[k] = v`, `k` maps to `v` and every other key maps to what it did before. */
  lemma {:induction false} SetGet<V>(d: Dict<V>, k: int, v: V)
    ensures Get(Set(d, k, v), k) == Some(v)
    ensures forall j | j != k :: Get(Set(d, k, v), j) == Get(d, j)
  {
    var r := Set(d, k, v);
    if d == [] {
    } else if d[0].0 == k {
      assert r[1..] == d[1..];
    } else {
      SetGet(d[1..], k, v);
      assert r[1..] == Set(d[1..], k, v);
    }
  }

  /** Assignment adds `k` to the keys and no other key. */
  lemma {:induction false} SetHasKey<V>(d: Dict<V>, k: int, v: V, j: int)
    ensures HasKey(Set(d, k, v), j) <==> j == k || HasKey(d, j)
  {
    var r := Set(d, k, v);
    if d == [] {
    } else if d[0].0 == k {
      assert r[1..] == d[1..];
    } else {
      SetHasKey(d[1..], k, v, j);
      assert r[1..] == Set(d[1..], k, v);
    }
  }

  /** Assignment never removes a key. */
  lemma SetKeepsKeys<V>(d: Dict<V>, k: int, v: V)
    ensures forall j | HasKey(d, j) :: HasKey(Set(d, k, v), j)
  {
    forall j | HasKey(d, j) ensures HasKey(Set(d, k, v), j) {
      SetHasKey(d, k, v, j);
    }
  }

  /** Assignment keeps keys unique, and grows the dictionary only for a new key. */
  lemma {:induction false} SetShape<V>(d: Dict<V>, k: int, v: V)
    ensures UniqueKeys(d) ==> UniqueKeys(Set(d, k, v))
    ensures |Set(d, k, v)| == if HasKey(d, k) then |d| else |d| + 1
  {
    var r := Set(d, k, v);
    if d == [] {
    } else if d[0].0 == k {
      assert r[1..] == d[1..];
    } else {
      SetShape(d[1..], k, v);
      SetHasKey(d[1..], k, v, d[0].0);
      assert r[1..] == Set(d[1..], k, v);
    }
  }

  /** `{i: v for i in range(lo, hi)}`. */
  function Range<V>(lo: int, hi: int, v: V): (r: Dict<V>)
    ensures UniqueKeys(r)
    ensures forall k :: Get(r, k) == (if lo <= k < hi then Some(v) else None)
    decreases hi - lo
  {
    if lo >= hi then []
    else
      var rest := Range(lo + 1, hi, v);
      var r := [(lo, v)] + rest;
      assert r[1..] == rest;
      assert Get(rest, lo) == None;
      assert forall k :: Get(r, k) == (if lo <= k < hi then Some(v) else None) by {
        forall k ensures Get(r, k) == (if lo <= k < hi then Some(v) else None) {
          if k != lo {
            assert Get(r, k) == Get(rest, k);
          }
        }
      }
      r
  }

  /** `sum(d.values())` for a dictionary of integers. */
  function SumValues(d: Dict<int>): int
  {
    if d == [] then 0 else d[0].1 + SumValues(d[1..])
  }

  /** Replacing the value under a present key changes the sum by the difference. */
  lemma {:induction false} SumSet(d: Dict<int>, k: int, v: int)
    requires HasKey(d, k)
    ensures SumValues(Set(d, k, v)) == SumValues(d) - Get(d, k).value + v
  {
    var r := Set(d, k, v);
    if d[0].0 == k {
      assert r[1..] == d[1..];
    } else {
      SumSet(d[1..], k, v);
      assert r[1..] == Set(d[1..], k, v);
    }
  }
}

=== FILE: reply.dfy ===
/**
 * The steering/throttle reply the operator sends back after each frame, as text:
 * the two values' `str` forms joined by ", " (run_server.py), and the rover's decode,
 * which splits on "," and needs exactly two fields, each of which `float()` accepts
 * (run_client.py, tests/run_client_test.py).
 */
module Reply {
  import opened Bytes
  import opened Wrappers
  import opened Decimal

  const COMMA: byte := 44

  /** `f'{steering}, {throttle}'`, given the texts of the two values. */
  function Format(steering: seq<byte>, throttle: seq<byte>): seq<byte>
  {
    steering + [COMMA, SPACE] + throttle
  }

  /** How many times byte `b` occurs in `s`. */
  function Count(s: seq<byte>, b: byte): nat
  {
    multiset(s)[b]
  }

  /** Python's `sep.join(fields)`. */
  function Join(fields: seq<seq<byte>>, sep: byte): seq<byte>
    decreases |fields|
  {
    if fields == [] then []
    else if |fields| == 1 then fields[0]
    else fields[0] + [sep] + Join(fields[1..], sep)
  }

  /**
   * Python's `s.split(sep)`: the pieces between separators, so one more piece than
   * there are separators, none containing the separator, and joining them gives `s` back.
   */
  function Split(s: seq<byte>, sep: byte): (fields: seq<seq<byte>>)
    ensures |fields| == Count(s, sep) + 1
    ensures forall i | 0 <= i < |fields| :: sep !in fields[i]
    ensures Join(fields, sep) == s
    decreases |s|
  {
    var k := IndexOf(s, sep);
    if k < 0 then
      NotHas(s, sep);
      [s]
    else
      assert s == s[..k] + [sep] + s[k + 1..];
      NotHas(s[..k], sep);
      var rest := Split(s[k + 1..], sep);
      assert ([s[..k]] + rest)[1..] == rest;
      [s[..k]] + rest
  }

  /** Text with exactly one separator splits into the texts before and after it. */
  lemma SplitTwo(s: seq<byte>, sep: byte)
    requires Count(s, sep) == 1
    ensures var k := IndexOf(s, sep);
            0 <= k && Split(s, sep) == [s[..k], s[k + 1..]]
  {
    var k := IndexOf(s, sep);
    if k < 0 {
      NotHas(s, sep);
      assert false;
    }
    var rest := Split(s[k + 1..], sep);
    assert Split(s, sep) == [s[..k]] + rest;
    assert |rest| == 1;
    assert Join(rest, sep) == rest[0];
  }

  lemma NotHas(s: seq<byte>, b: byte)
    requires !Has(s, b)
    ensures b !in s
  {
  }

  /** The first separator of `a + [sep] + rest` is the one after `a` when `a` has none. */
  lemma IndexOfFirst(a: seq<byte>, sep: byte, rest: seq<byte>)
    requires sep !in a
    ensures IndexOf(a + [sep] + rest, sep) == |a|
  {
    var msg := a + [sep] + rest;
    var k := IndexOf(msg, sep);
    assert msg[|a|] == sep;
    assert Has(msg, sep);
    if k < |a| {
      assert false;
    }
    if k > |a| {
      assert false;
    }
  }

  lemma IndexOfAbsent(s: seq<byte>, sep: byte)
    requires sep !in s
    ensures IndexOf(s, sep) == -1
  {
  }

  /**
   * The rover's decode, `map(float, message.split(","))` unpacked into two names; every
   * failure is a ValueError. `ParseDecodes` states when it succeeds and with what.
   */
  function Parse(msg: seq<byte>): (r: Result<(real, real)>)
    ensures r.Err? ==> r.error == ValueError
  {
    match TwoFields(msg, COMMA)
    case None => Err(ValueError)
    case Some((a, b)) => Pair(a, b)
  }

  /**
   * The decode succeeds exactly when the text has one comma and `float()` accepts the
   * text on either side of it (after stripping whitespace), and then gives the values of
   * those two texts.
   */
  lemma ParseDecodes(msg: seq<byte>)
    ensures Parse(msg).Ok? <==>
              && Count(msg, COMMA) == 1
              && var k := IndexOf(msg, COMMA);
                 ParseNumber(msg[..k]).Some? && ParseNumber(msg[k + 1..]).Some?
    ensures Parse(msg).Ok? ==>
              var k := IndexOf(msg, COMMA);
              Parse(msg).value == (Value(ParseNumber(msg[..k]).value), Value(ParseNumber(msg[k + 1..]).value))
  {
    var fields := TwoFields(msg, COMMA);
    if fields.Some? {
      var k := IndexOf(msg, COMMA);
      assert fields.value == (msg[..k], msg[k + 1..]);
      assert Parse(msg) == Pair(msg[..k], msg[k + 1..]);
    } else {
      assert Parse(msg) == Err(ValueError);
    }
  }

  /**
   * Unpacking `s.split(sep)` into two names: it works exactly when `s` holds one
   * separator, and then gives the texts before and after it.
   */
  function TwoFields(s: seq<byte>, sep: byte): (r: Option<(seq<byte>, seq<byte>)>)
    ensures r.Some? <==> Count(s, sep) == 1
    ensures r.Some? ==> var k := IndexOf(s, sep); 0 <= k && r.value == (s[..k], s[k + 1..])
  {
    var fields := Split(s, sep);
    if |fields| != 2 then None
    else
      SplitTwo(s, sep);
      Some((fields[0], fields[1]))
  }

  /** `float()` applied to both fields and unpacked into two names. */
  function Pair(a: seq<byte>, b: seq<byte>): (r: Result<(real, real)>)
    ensures r.Ok? <==> ParseNumber(a).Some? && ParseNumber(b).Some?
    ensures r.Ok? ==> r.value == (Value(ParseNumber(a).value), Value(ParseNumber(b).value))
    ensures r.Err? ==> r.error == ValueError
  {
    match (ParseNumber(a), ParseNumber(b))
    case (Some(steering), Some(throttle)) => Ok((Value(steering), Value(throttle)))
    case _ => Err(ValueError)
  }

  /**
   * `float()` skips only the space and \t \n \v \f \r, not the separator 0x1C that
   * `str.strip()` would remove, so a reply whose throttle text starts with it, such as
   * `1,<0x1C>2`, is rejected.
   */
  lemma SeparatorPaddingRejected(a: seq<byte>, b: seq<byte>)
    requires COMMA !in a && COMMA !in b
    requires |b| > 0 && b[0] == 28
    ensures Parse(a + [COMMA] + b) == Err(ValueError)
  {
    var msg := a + [COMMA] + b;
    IndexOfFirst(a, COMMA, b);
    assert msg[..|a|] == a && msg[|a| + 1..] == b;
    assert Count(msg, COMMA) == 1 by {
      assert multiset(msg) == multiset(a) + multiset([COMMA]) + multiset(b);
    }
    StrayLeadRejected(b);
    ParseDecodes(msg);
  }

  /** Splitting a formatted reply on its comma gives back the two texts (the second after its space). */
  lemma SplitFormat(a: seq<byte>, b: seq<byte>)
    requires COMMA !in a && COMMA !in b
    ensures Split(Format(a, b), COMMA) == [a, [SPACE] + b]
  {
    var msg := Format(a, b);
    assert msg == a + [COMMA] + ([SPACE] + b);
    IndexOfFirst(a, COMMA, [SPACE] + b);
    assert msg[|a| + 1..] == [SPACE] + b;
    assert msg[..|a|] == a;
    IndexOfAbsent([SPACE] + b, COMMA);
    var rest := Split([SPACE] + b, COMMA);
    assert rest == [[SPACE] + b];
  }

  /** A reply formatted from comma-free texts decodes to the values those texts denote. */
  lemma FormatThenParse(a: seq<byte>, b: seq<byte>, da: Dec, db: Dec)
    requires COMMA !in a && COMMA !in b
    requires ParseNumber(a) == Some(da) && ParseNumber(b) == Some(db)
    ensures Parse(Format(a, b)) == Ok((Value(da), Value(db)))
  {
    SplitFormat(a, b);
    StripLeadingSpace(b);
    assert ParseNumber([SPACE] + b) == ParseNumber(b);
  }

  lemma ShowCentiHasNoComma(c: int)
    ensures COMMA !in ShowCenti(c)
  {
    var t := ShowCenti(c);
    var a: nat := if c < 0 then -c else c;
    var whole := ShowNat(a / 100);
    var frac := CentsDigits(a % 100);
    CentsDigitsValue(a % 100);
    assert ShowUnsignedCenti(a) == whole + [DOT] + frac;
    assert forall i | 0 <= i < |whole| :: IsDigit(whole[i]);
    assert forall i | 0 <= i < |frac| :: IsDigit(frac[i]);
  }

  /**
   * The operator's reply for two two-decimal values (the controller's rounded axes)
   * decodes on the rover to exactly those values.
   */
  lemma CentiReplyRoundTrip(steering: int, throttle: int)
    ensures Parse(Format(ShowCenti(steering), ShowCenti(throttle)))
         == Ok((steering as real / 100.0, throttle as real / 100.0))
  {
    var msg := Format(ShowCenti(steering), ShowCenti(throttle));
    assert Parse(msg) == Ok((Value(CentiDec(steering)), Value(CentiDec(throttle)))) by {
      ShowCentiHasNoComma(steering);
      ShowCentiHasNoComma(throttle);
      ShowCentiParses(steering);
      ShowCentiParses(throttle);
      FormatThenParse(ShowCenti(steering), ShowCenti(throttle), CentiDec(steering), CentiDec(throttle));
    }
    CentiValues(Parse(msg), steering, throttle);
  }

  lemma CentiValues(r: Result<(real, real)>, steering: int, throttle: int)
    requires r == Ok((Value(CentiDec(steering)), Value(CentiDec(throttle))))
    ensures r == Ok((steering as real / 100.0, throttle as real / 100.0))
  {
    CentiDecValue(steering);
    CentiDecValue(throttle);
  }

  /** A reply without exactly one comma is rejected, whatever else it holds. */
  lemma OneCommaNeeded(msg: seq<byte>)
    requires Count(msg, COMMA) != 1
    ensures Parse(msg) == Err(ValueError)
  {
  }
}

=== FILE: server_session.dfy ===
/**
 * The operator's video thread (`VideoClientThread.run` in run_server.py) for one
 * connection: every received chunk goes through the JPEG scanner, and for each frame
 * that comes out the thread shows it and then, depending on the mode it was started in,
 * answers with the autopilot's or the game pad's steering and throttle as text.
 */
module VideoServer {
  import opened Wrappers
  import opened Bytes
  import opened Decimal
  import opened JpegScanner
  import opened Reply
  import opened Gamepad

  /** The `--mode` choices. */
  datatype Mode = Autopilot | Manual | VideoOnly

  /** Whether the thread has a pilot model and whether it has a game pad. */
  datatype Config = Config(usePilot: bool, usePad: bool)

  /**
   * The table of launch modes: autopilot loads a model and no pad, manual starts the pad
   * and no model, video-only starts neither.
   */
  function ConfigOf(mode: Mode): (r: Config)
    ensures r.usePilot <==> mode == Autopilot
    ensures r.usePad <==> mode == Manual
  {
    match mode
    case Autopilot => Config(true, false)
    case Manual => Config(false, true)
    case VideoOnly => Config(false, false)
  }

  /**
   * `model.run(image)` followed by the rendering of its two floats: given a frame, the
   * texts of the steering and throttle it proposes. The network itself is not modelled.
   */
  type Pilot = seq<byte> -> (seq<byte>, seq<byte>)

  /** The thread's state: the stream buffer, the frame counter and the pad's generator. */
  datatype Session = Session(buffer: seq<byte>, frames: nat, pad: Generator)

  /** A session before the first chunk. */
  function StartSession(pad: Generator): Session
  {
    Session(InitialBuffer, 0, pad)
  }

  /**
   * What one pass of the loop sees from outside: the received chunk, the pad events
   * queued when the generator is next resumed, and whether the viewer pressed `q`.
   */
  datatype Input = Input(chunk: seq<byte>, events: seq<Event>, quit: bool)

  /** The outcome of one pass: the new state, the replies sent, and whether the loop ended. */
  datatype Pass = Pass(session: Session, replies: seq<seq<byte>>, stop: bool)

  /** The reply for the pad's current pair of hundredths. */
  function PadReply(pair: (int, int)): seq<byte>
  {
    Format(ShowCenti(pair.0), ShowCenti(pair.1))
  }

  /**
   * One pass of the loop. Without a complete frame the chunk is only buffered. With one,
   * the counter goes up and the frame is shown; `q` ends the loop before any reply;
   * otherwise the pilot's reply (if any) is sent, then the pad is polled once and its
   * reply (if any) is sent.
   */
  function OnChunk(s: Session, cfg: Config, pilot: Pilot, input: Input, linux: bool): (r: Pass)
    requires HasAxes(s.pad.pad)
    ensures HasAxes(r.session.pad.pad)
    ensures Scan(s.buffer, input.chunk).frame.None? ==> r == Pass(s.(buffer := s.buffer + input.chunk), [], false)
    ensures r.session.buffer == Scan(s.buffer, input.chunk).buffer
    ensures r.stop ==> r.replies == [] && r.session.pad == s.pad
    ensures |r.replies| == if Scan(s.buffer, input.chunk).frame.None? || r.stop then 0
                            else (if cfg.usePilot then 1 else 0) + (if cfg.usePad then 1 else 0)
    ensures r.session.frames == s.frames + if Scan(s.buffer, input.chunk).frame.Some? then 1 else 0
  {
    var step := Scan(s.buffer, input.chunk);
    match step.frame
    case None => Pass(s.(buffer := step.buffer), [], false)
    case Some(frame) =>
      var shown := Session(step.buffer, s.frames + 1, s.pad);
      if input.quit then Pass(shown, [], true)
      else
        var fromPilot := if cfg.usePilot then [Format(pilot(frame).0, pilot(frame).1)] else [];
        if cfg.usePad then
          var pad := PollRound(s.pad, input.events, linux);
          Pass(shown.(pad := pad), fromPilot + [PadReply(pad.pair)], false)
        else Pass(shown, fromPilot, false)
  }

  /** The loop over a run of inputs, up to the first `q`: the final pass state and all replies. */
  function Serve(s: Session, cfg: Config, pilot: Pilot, inputs: seq<Input>, linux: bool): (r: Pass)
    requires HasAxes(s.pad.pad)
    ensures HasAxes(r.session.pad.pad)
    ensures r.session.frames >= s.frames
    decreases |inputs|
  {
    if inputs == [] then Pass(s, [], false)
    else
      var p := OnChunk(s, cfg, pilot, inputs[0], linux);
      if p.stop then p
      else
        var rest := Serve(p.session, cfg, pilot, inputs[1..], linux);
        Pass(rest.session, p.replies + rest.replies, rest.stop)
  }

  /**
   * In a mode with a single source of replies, every frame shown is answered once,
   * except the one on which the viewer quit.
   */
  lemma {:induction false} OneReplyPerFrame(s: Session, cfg: Config, pilot: Pilot, inputs: seq<Input>, linux: bool)
    requires HasAxes(s.pad.pad) && cfg.usePilot != cfg.usePad
    ensures var r := Serve(s, cfg, pilot, inputs, linux);
            |r.replies| + (if r.stop then 1 else 0) == r.session.frames - s.frames
    decreases |inputs|
  {
    if inputs != [] {
      var p := OnChunk(s, cfg, pilot, inputs[0], linux);
      if !p.stop {
        OneReplyPerFrame(p.session, cfg, pilot, inputs[1..], linux);
      }
    }
  }

  /** In video-only mode nothing is ever sent back. */
  lemma {:induction false} VideoOnlySilent(s: Session, pilot: Pilot, inputs: seq<Input>, linux: bool)
    requires HasAxes(s.pad.pad)
    ensures Serve(s, ConfigOf(VideoOnly), pilot, inputs, linux).replies == []
    decreases |inputs|
  {
    if inputs != [] {
      var p := OnChunk(s, ConfigOf(VideoOnly), pilot, inputs[0], linux);
      if !p.stop {
        VideoOnlySilent(p.session, pilot, inputs[1..], linux);
      }
    }
  }

  /**
   * In manual mode the reply to a frame is the pad's steering and throttle after the
   * events queued since the last frame (which `PadReplyParses` decodes back).
   */
  lemma ManualReply(s: Session, pilot: Pilot, input: Input, linux: bool)
    requires Tracks(s.pad, linux)
    requires Scan(s.buffer, input.chunk).frame.Some? && !input.quit
    ensures var r := OnChunk(s, ConfigOf(Manual), pilot, input, linux);
            var pair := SteerThrottle(ApplyAll(s.pad.pad, input.events), linux);
            && Tracks(r.session.pad, linux)
            && r.replies == [PadReply(pair)]
  {
    ManualPass(s, pilot, input, linux);
    PollRoundTracks(s.pad, input.events, linux);
  }

  /** A pad reply decodes to its two values in hundredths. */
  lemma PadReplyParses(pair: (int, int))
    ensures Parse(PadReply(pair)) == Ok((pair.0 as real / 100.0, pair.1 as real / 100.0))
  {
    CentiReplyRoundTrip(pair.0, pair.1);
  }

  lemma ManualPass(s: Session, pilot: Pilot, input: Input, linux: bool)
    requires HasAxes(s.pad.pad)
    requires Scan(s.buffer, input.chunk).frame.Some? && !input.quit
    ensures var pad := PollRound(s.pad, input.events, linux);
            var r := OnChunk(s, ConfigOf(Manual), pilot, input, linux);
            r.session.pad == pad && r.replies == [PadReply(pad.pair)]
  {
  }
}

=== FILE: video_client.dfy ===
/**
 * The control half of the rover's camera loop (`VideoSendThread.run` in run_client.py,
 * with `--receive_controls`): after each frame is written the rover reads the operator's
 * reply, decodes it into steering and throttle, and runs the steering motor and then the
 * drive motor. Any failure raises out of the loop.
 */
module Rover {
  import opened Wrappers
  import opened Bytes
  import opened Reply
  import opened Motor
  import opened Gamepad
  import opened JpegScanner
  import opened VideoServer

  /** The two motor commands left behind by one reply. */
  datatype Drives = Drives(steering: Command, drive: Command)

  /**
   * Run the steering motor, then the drive motor, on decoded values; the first failure is
   * the result, and with these two motors every failure is a ValueError.
   */
  function Act(values: (real, real)): (r: Result<Drives>)
    ensures r.Err? ==> r.error == ValueError
    ensures r.Ok? ==> Run(Steering, values.0) == Ok(r.value.steering)
                      && Run(Drive, values.1) == Ok(r.value.drive)
  {
    RunErrors(Steering, values.0);
    RunErrors(Drive, values.1);
    match Run(Steering, values.0)
    case Err(e) => Err(e)
    case Ok(steering) =>
      match Run(Drive, values.1)
      case Err(e) => Err(e)
      case Ok(drive) => Ok(Drives(steering, drive))
  }

  /** Decode the reply, then act on it. */
  function OnReply(reply: seq<byte>): (r: Result<Drives>)
    ensures r.Err? ==> r.error == ValueError
    ensures r.Ok? ==> Parse(reply).Ok? && r == Act(Parse(reply).value)
  {
    match Parse(reply)
    case Err(e) => Err(e)
    case Ok(values) => Act(values)
  }

  /**
   * Decoded values are acted on exactly when both lie in [-1, 1]. Neither motor can fail
   * otherwise, because both have a non-zero max_duty.
   */
  lemma ActAccepts(values: (real, real))
    ensures Act(values).Ok? <==> -1.0 <= values.0 <= 1.0 && -1.0 <= values.1 <= 1.0
  {
    if -1.0 <= values.0 <= 1.0 && -1.0 <= values.1 <= 1.0 {
      SteeringRange(values.0);
      DriveRange(values.1);
    }
  }

  /**
   * The steering motor runs first: with an in-range steering value and an out-of-range
   * throttle, the steering command has already been applied when the drive motor raises.
   */
  lemma SteeringAppliedBeforeDriveFails(values: (real, real))
    requires -1.0 <= values.0 <= 1.0
    requires values.1 < -1.0 || values.1 > 1.0
    ensures Run(Steering, values.0).Ok?
    ensures Act(values) == Err(ValueError)
  {
    SteeringRange(values.0);
  }

  /** A reply is acted on exactly when it decodes and both values lie in [-1, 1]. */
  lemma OnReplyAccepts(reply: seq<byte>)
    ensures OnReply(reply).Ok? <==>
              && Parse(reply).Ok?
              && -1.0 <= Parse(reply).value.0 <= 1.0
              && -1.0 <= Parse(reply).value.1 <= 1.0
  {
    if Parse(reply).Ok? {
      ActAccepts(Parse(reply).value);
    }
  }

  /** Floor of hundredths times an integer, computed on integers. */
  lemma CentiTimes(c: int, n: int)
    requires n > 0
    ensures (c as real / 100.0 * n as real).Floor == c * n / 100
  {
    var q, m := c * n / 100, c * n % 100;
    assert c * n == 100 * q + m;
    assert c as real / 100.0 * n as real == (c * n) as real / 100.0;
    assert (c * n) as real / 100.0 == q as real + m as real / 100.0;
  }

  /**
   * From the operator's pad to the rover's motors in manual mode: when a frame arrives and
   * the pad's steering and throttle (after the events queued since the last frame) lie in
   * [-100, 100] hundredths, the rover steers with throttle `steering * 80 / 100` and drives
   * with `throttle * 60 / 100`, both floored, the latter raised by 10 below 30.
   */
  lemma ManualControl(s: Session, pilot: Pilot, input: Input, linux: bool)
    requires Tracks(s.pad, linux)
    requires Scan(s.buffer, input.chunk).frame.Some? && !input.quit
    requires var pair := SteerThrottle(ApplyAll(s.pad.pad, input.events), linux);
             -100 <= pair.0 <= 100 && -100 <= pair.1 <= 100
    ensures var pair := SteerThrottle(ApplyAll(s.pad.pad, input.events), linux);
            var replies := OnChunk(s, ConfigOf(Manual), pilot, input, linux).replies;
            && |replies| == 1
            && OnReply(replies[0])
               == Ok(Drives(Outputs(pair.0 * 80 / 100), Outputs(Bump(Drive, pair.1 * 60 / 100))))
  {
    var pair := SteerThrottle(ApplyAll(s.pad.pad, input.events), linux);
    ManualReply(s, pilot, input, linux);
    PadDrives(pair);
  }

  /** What the rover does with a pad reply whose values lie in [-100, 100] hundredths. */
  lemma PadDrives(pair: (int, int))
    requires -100 <= pair.0 <= 100 && -100 <= pair.1 <= 100
    ensures OnReply(PadReply(pair))
         == Ok(Drives(Outputs(pair.0 * 80 / 100), Outputs(Bump(Drive, pair.1 * 60 / 100))))
  {
    PadReplyParses(pair);
    CentiDrives(pair);
  }

  /** The motor commands for values given in hundredths within [-100, 100]. */
  lemma CentiDrives(pair: (int, int))
    requires -100 <= pair.0 <= 100 && -100 <= pair.1 <= 100
    ensures Act((pair.0 as real / 100.0, pair.1 as real / 100.0))
         == Ok(Drives(Outputs(pair.0 * 80 / 100), Outputs(Bump(Drive, pair.1 * 60 / 100))))
  {
    RunSymmetric(Steering, pair.0 as real / 100.0);
    RunSymmetric(Drive, pair.1 as real / 100.0);
    CentiTimes(pair.0, 80);
    CentiTimes(pair.1, 60);
  }
}

=== FILE: video_wire.dfy ===
/**
 * What the rover side writes on the video connection, and what the operator's marker
 * scan makes of it. The rover (run_client.py) precedes each JPEG image with its length
 * packed as a 4-byte little-endian unsigned integer (`struct.pack('<L', n)`); the test
 * client (tests/run_client_test.py) instead wraps each image in a multipart part. Both
 * would close with a zero length as end-of-stream terminator.
 */
module VideoWire {
  import opened Bytes
  import opened Wrappers
  import opened JpegScanner

  const U32_LIMIT: int := 0x1_0000_0000

  /** Reads four little-endian bytes back as an unsigned integer. */
  function UnpackU32(b: seq<byte>): (n: int)
    requires |b| == 4
    ensures 0 <= n < U32_LIMIT
  {
    var b0: int, b1: int, b2: int, b3: int := b[0], b[1], b[2], b[3];
    b0 + 0x100 * b1 + 0x1_0000 * b2 + 0x100_0000 * b3
  }

  /** `struct.pack('<L', n)`: four little-endian bytes, or struct.error outside [0, 2^32). */
  function PackU32(n: int): (r: Result<seq<byte>>)
    ensures r.Ok? <==> 0 <= n < U32_LIMIT
    ensures r.Ok? ==> |r.value| == 4 && UnpackU32(r.value) == n
    ensures r.Err? ==> r.error == StructError
  {
    if 0 <= n < U32_LIMIT then
      var n1 := n / 0x100;
      var n2 := n1 / 0x100;
      Ok([n % 0x100, n1 % 0x100, n2 % 0x100, n2 / 0x100])
    else Err(StructError)
  }

  /** Every four bytes are the packing of exactly one integer. */
  lemma UnpackThenPack(b: seq<byte>)
    requires |b| == 4
    ensures PackU32(UnpackU32(b)) == Ok(b)
  {
    var b0: int, b1: int, b2: int, b3: int := b[0], b[1], b[2], b[3];
    var n := UnpackU32(b);
    var n1 := b1 + 0x100 * (b2 + 0x100 * b3);
    var n2 := b2 + 0x100 * b3;
    assert n == b0 + 0x100 * n1;
    SplitLowByte(b0, n1);
    SplitLowByte(b1, n2);
    SplitLowByte(b2, b3);
    assert b == [b[0], b[1], b[2], b[3]];
  }

  lemma SplitLowByte(low: int, high: int)
    requires 0 <= low < 0x100 && 0 <= high
    ensures (low + 0x100 * high) % 0x100 == low
    ensures (low + 0x100 * high) / 0x100 == high
  {
  }

  /** The end-of-stream terminator: zero, packed as '<L'. */
  const Terminator: seq<byte> := [0, 0, 0, 0]

  lemma TerminatorIsPackedZero()
    ensures PackU32(0) == Ok(Terminator)
  {
  }

  /** The terminator holds no marker, so the operator only buffers it. */
  lemma TerminatorYieldsNoFrame(buffer: seq<byte>)
    requires NoLead(buffer)
    ensures Scan(buffer, Terminator) == Step(None, buffer + Terminator)
  {
    var s := buffer + Terminator;
    assert NoLead(s);
    assert !Contains(s, SOI);
  }

  /** The bytes the rover writes for one captured image: its length, then the image. */
  function RoverFrame(jpeg: seq<byte>): Result<seq<byte>>
  {
    match PackU32(|jpeg|)
    case Ok(prefix) => Ok(prefix + jpeg)
    case Err(e) => Err(e)
  }

  /**
   * When the packed length holds no 0xFF byte, the operator's scan hands on exactly
   * the image and keeps nothing.
   */
  lemma RoverFrameScan(buffer: seq<byte>, jpeg: seq<byte>)
    requires NoLead(buffer) && IsJpeg(jpeg) && |jpeg| < U32_LIMIT
    requires NoLead(PackU32(|jpeg|).value)
    ensures RoverFrame(jpeg).Ok?
    ensures Scan(buffer, RoverFrame(jpeg).value) == Step(Some(jpeg), [])
  {
    var prefix := PackU32(|jpeg|).value;
    ScanDelimited(buffer, prefix, jpeg, []);
    assert prefix + jpeg + [] == prefix + jpeg;
  }

  /**
   * The length prefix is not escaped: an image of 0xD8FF bytes is announced by the
   * bytes FF D8 00 00, which the operator takes for a start-of-image marker, so the
   * frame it hands on carries the four prefix bytes in front of the image.
   */
  lemma LengthPrefixCanForgeStart(buffer: seq<byte>, jpeg: seq<byte>)
    requires NoLead(buffer) && IsJpeg(jpeg) && |jpeg| == 0xD8FF
    ensures PackU32(|jpeg|) == Ok([0xFF, 0xD8, 0, 0])
    ensures Scan(buffer, RoverFrame(jpeg).value) == Step(Some([0xFF, 0xD8, 0, 0] + jpeg), [])
  {
    var forged: seq<byte> := [0xFF, 0xD8, 0, 0] + jpeg;
    PackedLengthLooksLikeStart();
    ForgedStartIsJpeg(jpeg);
    ScanDelimited(buffer, [], forged, []);
    assert [] + forged + [] == forged;
  }

  /** The length 0xD8FF packs to the bytes of a start-of-image marker and two zeros. */
  lemma PackedLengthLooksLikeStart()
    ensures PackU32(0xD8FF) == Ok([0xFF, 0xD8, 0, 0])
  {
    assert 0xD8FF % 0x100 == 0xFF && 0xD8FF / 0x100 == 0xD8;
    assert 0xD8 % 0x100 == 0xD8 && 0xD8 / 0x100 == 0;
  }

  /** Four bytes FF D8 00 00 in front of an image again make a well-formed image. */
  lemma ForgedStartIsJpeg(jpeg: seq<byte>)
    requires IsJpeg(jpeg)
    ensures IsJpeg([0xFF, 0xD8, 0, 0] + jpeg)
  {
    var prefix: seq<byte> := [0xFF, 0xD8, 0, 0];
    var forged := prefix + jpeg;
    assert MarkerAt(forged, 0, SOI);
    FirstAtShift(prefix[2..], jpeg, [], |jpeg| - 2, EOI);
    assert prefix[2..] + jpeg + [] == forged[2..];
    forall k | 0 <= k < |forged| - 2
      ensures !MarkerAt(forged, k, EOI)
    {
      if k >= 2 {
        assert !MarkerAt(forged[2..], k - 2, EOI);
        assert forged[k] == forged[2..][k - 2] && forged[k + 1] == forged[2..][k - 1];
      }
    }
    assert MarkerAt(forged, |forged| - 2, EOI);
  }

  /** Text that is ASCII holds no 0xFF byte. */
  lemma AsciiNoLead(s: string)
    requires IsAscii(s)
    ensures NoLead(Ascii(s))
  {
  }

  /** The multipart part header written before each image by the test client. */
  function PartHeader(): (r: seq<byte>)
    ensures NoLead(r)
  {
    AsciiNoLead("--frame\r\n");
    AsciiNoLead("Content-Type: image/jpeg\r\n\r\n");
    Ascii("--frame\r\n") + Ascii("Content-Type: image/jpeg\r\n\r\n")
  }

  /** The line break written after each image by the test client. */
  function PartTrailer(): (r: seq<byte>)
    ensures NoLead(r)
  {
    AsciiNoLead("\r\n");
    Ascii("\r\n")
  }

  /** The test client's multipart part for one image; the image bytes appear unchanged. */
  function Wrap(jpeg: seq<byte>): (r: seq<byte>)
    ensures |r| == |PartHeader()| + |jpeg| + |PartTrailer()|
    ensures r[|PartHeader()|..|PartHeader()| + |jpeg|] == jpeg
  {
    PartHeader() + jpeg + PartTrailer()
  }

  /**
   * One pass of the test client's capture loop: it writes the wrapped image, then the
   * contents of its in-memory stream, and empties that stream. Nothing ever writes into
   * the stream, so the second write is empty on every pass.
   */
  function TestClientPass(stream: seq<byte>, jpeg: seq<byte>): (r: (seq<seq<byte>>, seq<byte>))
    ensures Concat(r.0) == Wrap(jpeg) + stream
    ensures stream == [] ==> Concat(r.0) == Wrap(jpeg)
    ensures r.1 == []
  {
    var writes := [Wrap(jpeg), stream];
    assert writes[1..] == [stream] && [stream][1..] == [];
    assert Concat([stream]) == stream + [];
    assert stream + [] == stream;
    (writes, [])
  }

  /** The bytes the test client puts on the wire for a run of images, pass by pass. */
  function TestClientWrites(stream: seq<byte>, jpegs: seq<seq<byte>>): seq<byte>
    decreases |jpegs|
  {
    if jpegs == [] then []
    else
      var pass := TestClientPass(stream, jpegs[0]);
      Concat(pass.0) + TestClientWrites(pass.1, jpegs[1..])
  }

  /** The chunks the operator receives when every part arrives in a `recv` of its own. */
  function WrapAll(jpegs: seq<seq<byte>>): (r: seq<seq<byte>>)
    ensures |r| == |jpegs|
  {
    if jpegs == [] then [] else [Wrap(jpegs[0])] + WrapAll(jpegs[1..])
  }

  /** From an empty stream, the wire carries exactly the wrapped images, one after another. */
  lemma {:induction false} TestClientWireBytes(jpegs: seq<seq<byte>>)
    ensures TestClientWrites([], jpegs) == Concat(WrapAll(jpegs))
  {
    if jpegs != [] {
      TestClientWireBytes(jpegs[1..]);
      assert WrapAll(jpegs)[1..] == WrapAll(jpegs[1..]);
    }
  }

  /** One part in one `recv`: the operator hands on the image and keeps the line break. */
  lemma WrapScan(buffer: seq<byte>, j: seq<byte>)
    requires NoLead(buffer) && IsJpeg(j)
    ensures Scan(buffer, Wrap(j)) == Step(Some(j), PartTrailer())
  {
    ScanDelimited(buffer, PartHeader(), j, PartTrailer());
  }

  /**
   * Fed the test client's parts one per `recv`, the operator hands on exactly the
   * images that were sent, in order, and is left holding the final line break.
   */
  lemma {:induction false} WrappedStreamScan(buffer: seq<byte>, jpegs: seq<seq<byte>>)
    requires NoLead(buffer)
    requires forall i | 0 <= i < |jpegs| :: IsJpeg(jpegs[i])
    ensures ScanAll(buffer, WrapAll(jpegs)).0 == jpegs
    ensures NoLead(ScanAll(buffer, WrapAll(jpegs)).1)
    decreases |jpegs|
  {
    if jpegs != [] {
      var j := jpegs[0];
      var chunks := WrapAll(jpegs);
      var rest := ScanAll(PartTrailer(), chunks[1..]);
      assert ScanAll(buffer, chunks) == ([j] + rest.0, rest.1) by {
        assert chunks[0] == Wrap(j);
        WrapScan(buffer, j);
        ScanAllFrame(buffer, chunks, j, PartTrailer());
      }
      assert rest.0 == jpegs[1..] && NoLead(rest.1) by {
        assert chunks[1..] == WrapAll(jpegs[1..]);
        WrappedStreamScan(PartTrailer(), jpegs[1..]);
      }
      assert [j] + jpegs[1..] == jpegs;
    }
  }
}

=== FILE: wrappers.dfy ===
/** Failure-carrying values for the operations whose Python originals raise. */
module Wrappers {

  /** A value that may be absent (Python's -1 / None / a swallowed exception). */
  datatype Option<+T> = None | Some(value: T)

  /** The Python exceptions the modelled code can raise. */
  datatype Error =
    | ValueError         // out-of-range speed, malformed reply text
    | ZeroDivisionError  // map_range over a zero-width range
    | StructError        // struct.pack('<L', n) with n outside [0, 2^32)

  /** Either a result or the exception that replaced it. */
  datatype Result<+T> = Ok(value: T) | Err(error: Error)
}
